=== FILE: README.md ===
# netcatr banner grabbing, modelled in Dafny

This project models the banner-grabbing core of `netcatr`, a netcat-like
tool written in Rust. The model covers two areas.

- `src/banner.rs` is modelled by `protocol.dfy`, `stream.dfy` and
  `banner.dfy`. It covers:
  - the `Protocol` enum, hint parsing, and the two port tables;
  - the rule that resolves `Auto` to a concrete protocol;
  - dispatch to a grab strategy;
  - the HTTP header loop;
  - the single 1024-byte read of the SSH, Telnet and Raw strategies;
  - the field extractors behind `print_banner_info`.
- `src/main.rs` is modelled by `cli.dfy`. It covers `host_from_opts` and
  the multi-port scan `grab_multiple_banners`.

Two support files hold no netcatr logic of their own:

- `text.dfy` models the pieces of Rust's `str` API that the source relies
  on: `trim`, `lines`, `split`, ASCII `to_lowercase` and
  `parse::<u16>`.
- `wrappers.dfy` holds `Option` and `Result`.

The network is a parameter, not something the model performs:

- A grab receives the outcome of connecting: either the connection error
  or a `Peer`. A `Peer` describes what the remote service sends, how much
  of it one `read` call returns, whether writing to it fails, and whether
  the stream ends by closing or by a read timeout.
- Within a grab, the connection is a `Streams.Connection` object. Its
  `ReadLine`, `Read` and `WriteAll` methods update the unread input and
  the written output in place.
- The multi-port scan takes the single-port grab as an abstract function
  from options to an outcome.
- What the source prints (protocol label, trimmed banner, extracted
  fields) is returned as a `BannerInfo` value.

Each section of the multi-port report holds only the line "Banner grabbed
successfully" for a successful grab. The grabbed record itself goes to the
terminal (`src/main.rs:67-70`).

## Model

| member | source | states |
|---|---|---|
| Protocols.FromStr | src/banner.rs:28-39 | A concrete protocol is chosen exactly when the lower-cased hint is one of the seven names, and then the hint lower-cases to that protocol's name. Every other hint gives `Auto`. |
| Protocols.FromStrCaseInsensitive | src/banner.rs:29 | A hint and its lower-cased form parse to the same protocol. |
| Protocols.FromStrName | src/banner.rs:30-37 | Every protocol's name parses back to that protocol. |
| Protocols.FromStrUpperCase | src/banner.rs:29-33 | "HTTP" parses to HTTP and "Ssh" to SSH. |
| Protocols.FromStrUnknown | src/banner.rs:37 | "gopher", the empty hint and "AUTO" all give `Auto`. |
| Protocols.DefaultPort | src/banner.rs:43-53 | Every protocol's default port is one of the six ports the detection table knows. |
| Protocols.DetectFromPort | src/banner.rs:55-65 | Never `Auto`. `Raw` exactly for ports outside {21, 22, 23, 25, 80, 443}. A detected protocol's default port is the port it was detected from. |
| Protocols.DefaultPortRoundTrip | src/banner.rs:43-65 | `DefaultPort` and `DetectFromPort` are inverse: HTTP, HTTPS, FTP, SSH, SMTP and Telnet are detected back from their default ports. Raw and Auto default to 80 and so come back as HTTP. |
| Protocols.PortTable | src/banner.rs:43-65 | The table itself, in both directions: 21 is FTP, 22 SSH, 23 Telnet, 25 SMTP, 80 HTTP and 443 HTTPS. |
| Protocols.Resolve | src/banner.rs:83-86 | The result is never `Auto`. A non-`Auto` hint is kept. `Auto` with a port that is not a `u16` resolves to HTTP. |
| Protocols.ResolveDecimal | src/banner.rs:84 | With `Auto`, the decimal text of any `u16` resolves through the detection table. |
| Protocols.ResolveUnparsable | src/banner.rs:84 | With `Auto`, a port that does not parse resolves exactly as "80" does, which is HTTP. |
| Protocols.ResolveExamples | src/banner.rs:83-86 | "abc", "70000", "" and "-22" resolve to HTTP under `Auto`. An explicit SSH hint stays SSH on port "80". |
| Protocols.LabelHttp | src/banner.rs:97-104 | `Label` is the protocol string each strategy passes to `print_banner_info`. The label "HTTP" belongs to HTTP and HTTPS only. "SSH" belongs to SSH only, and "FTP" to FTP only. |
| Text.Trim | src/main.rs:51 | `str::trim` is never longer than its input. The result is empty exactly when the input is all white space. A non-empty result has no white space at either end. |
| Text.TrimSlice | src/main.rs:51 | The trim is one contiguous slice of the input, and everything before and after that slice is white space. |
| Text.TrimPadded | src/banner.rs:179 | Trimming a white-space-padded text returns exactly the text. |
| Text.Lines | src/banner.rs:192 | `str::lines` gives no line for empty text and never returns a line that contains '\n'. |
| Text.LinesCrlf | src/banner.rs:192 | A line ended by CRLF is returned without its CR and LF, followed by the lines of the rest. |
| Text.SplitCount | src/main.rs:25-26 | `split(':')` produces one more piece than there are separators. |
| Text.JoinSplit | src/main.rs:25-27 | Joining the pieces of a split with the separator gives back the original text. |
| Text.SplitAppend | src/main.rs:50 | Splitting `a + sep + b` gives the pieces of `a` followed by the pieces of `b`. |
| Text.ParseU16 | src/banner.rs:84 | `parse::<u16>` rejects the empty text, a lone '+', and any text starting with '-'. |
| Text.ParseU16Plus | src/banner.rs:84 | One leading '+' is accepted and does not change the value. Two leading '+' are rejected. |
| Text.ParseDecimal | src/banner.rs:84 | `parse::<u16>` accepts the decimal text of every `u16` and returns that number. |
| Streams.LineOf | src/banner.rs:120 | `read_line` returns a prefix of the pending input. The line holds no '\n' before its last character. It ends with '\n' unless it is all the remaining input. It is empty only at the end of the input. It fails exactly when no '\n' is left and the peer stalls, and the error is the peer's timeout. |
| Streams.ReadCount | src/banner.rs:142 | One `read` returns no more than the buffer holds or the input has left. It returns zero only at end of input. It fails exactly when nothing is left and the peer stalls. |
| Streams.Connection.ReadLine | src/banner.rs:120 | The result is `LineOf` of the old pending input. On success that line is consumed, and nothing is written. |
| Streams.Connection.Read | src/banner.rs:141-143 | The count is `ReadCount` for the buffer's length. The front of the buffer is filled from the pending input and the rest of the buffer is unchanged. The pending input advances by the count. |
| Streams.Connection.WriteAll | src/banner.rs:112 | Writing fails with the peer's write error. Otherwise the bytes are appended to what was sent. |
| Banner.HttpField | src/banner.rs:193-199 | A line gives a field exactly when its lower-cased form starts with `server:` or `x-powered-by:`. The value is the trimmed text after the keyword's ':'. The `server:` test wins. |
| Banner.HttpFields | src/banner.rs:192-200 | At most one field per line, and every field is named "Server" or "Powered by". |
| Banner.ExtractHttp | src/banner.rs:191-201 | `extract_http_info` gives at most one field per line of the banner, and every field is named "Server" or "Powered by". |
| Banner.HttpFieldsAppend | src/banner.rs:192 | Fields come out in line order: the fields of two runs of lines are the first run's fields followed by the second's. |
| Banner.HttpFieldsNone | src/banner.rs:192-200 | If no line matches, there are no fields. |
| Banner.HttpServerResponse | src/banner.rs:191-201 | A status line followed by a CRLF-terminated "Server: v" header yields the single field ("Server", v). |
| Banner.ServerHeader | src/banner.rs:193-195 | A `server:` header in any letter case yields its trimmed value. |
| Banner.ExtractSsh | src/banner.rs:203-210 | At most one field. A field appears exactly when the first line starts, case-sensitively, with "SSH-". |
| Banner.SshFirstLineOnly | src/banner.rs:204 | Text after the first line never changes the SSH field. |
| Banner.SshVersionLine | src/banner.rs:203-209 | An SSH identification line is reported as its version, without its CRLF. |
| Banner.ExtractFtp | src/banner.rs:212-217 | At most one field. A field appears exactly when the untrimmed banner starts with "220". |
| Banner.FtpGreeting | src/banner.rs:212-216 | A "220" greeting yields the trimmed greeting. A greeting after a leading space yields nothing. |
| Banner.PrintBannerInfo | src/banner.rs:176-189 | The report carries the label and the trimmed banner. The label "HTTP" runs `ExtractHttp` on the untrimmed banner, "SSH" runs `ExtractSsh` and "FTP" runs `ExtractFtp`. Every other label gives no fields. |
| Banner.HeaderBlock | src/banner.rs:118-125 | The collected header block is a prefix of what the peer sent. |
| Banner.HeaderBlockClosed | src/banner.rs:118-125 | On a stream that closes, the block is the concatenation of the lines before the first blank line, in order. The blank line is excluded. |
| Banner.HeaderBlockStalls | src/banner.rs:118-125 | On a stream that stalls, a successful read gives the same block as on a closed stream, and a failure is the timeout error. |
| Banner.FirstRead | src/banner.rs:141-143 | One read captures at most 1024 characters, taken from the front of what the peer sent. It is empty only at end of input. |
| Banner.HeaderGap | src/banner.rs:121-123 | The line that ends the header block is blank: white space only, or the empty read at the end of the stream. |
| Banner.HeaderRestSuffix | src/banner.rs:118-125 | What the header loop leaves unread is a tail of what the peer had pending, whether the loop ends at a blank line or at a failed read. |
| Banner.HeaderParts | src/banner.rs:118-125 | When the loop succeeds, the pending input is exactly the header block, then the blank line that ended it, then the unread rest, in that order. Nothing is skipped or read twice. |
| Banner.GrabHttpBanner | src/banner.rs:109-129 | A failing write gives its error and changes nothing: nothing is sent and nothing is read. Otherwise exactly the request `HeadRequest(host)` is sent, the result is the header block labelled "HTTP" or the read error, and the input left unread is `HeaderRest` of what the peer had pending. |
| Banner.GrabLineBanner | src/banner.rs:131-156 | FTP and SMTP read one line, and that line is the banner. The line is consumed from the pending input, and nothing is written. |
| Banner.GrabBoundedBanner | src/banner.rs:140-174 | SSH, Telnet and Raw perform exactly one read into a 1024-entry buffer. The banner is what that read returned, so it is at most 1024 characters. The pending input advances past it, and nothing is written. |
| Banner.GrabBanner | src/banner.rs:68-107 | The result is `GrabOutcome`: the resolved protocol's `Capture` (the header block, one line, or one read) reported under its label. A connection error passes through unchanged. A report carries the label of the resolved protocol. |
| Banner.BoundedCapture | src/banner.rs:141-143 | SSH, Telnet and Raw never capture more than the buffer holds. |
| Banner.HttpsIsHttp | src/banner.rs:98 | HTTPS is captured and labelled exactly like HTTP, so it gets the HTTP extraction. |
| Banner.GrabHttpServer | src/banner.rs:97-129 | An HTTP or HTTPS grab of a server that answers a status line, a "Server: v" header and a blank line reports the single field ("Server", v) under "HTTP", whatever the server sends after the blank line. |
| Banner.ResponseHeader | src/banner.rs:118-125 | For that response, the header loop collects the status line and the `Server` line and stops at the blank line. |
| Banner.GrabSshVersion | src/banner.rs:100-146 | An SSH grab whose single read holds the whole identification line reports the field ("SSH Version", version) under "SSH", whatever else the read holds. |
| Banner.SshRead | src/banner.rs:140-145 | A read that is large enough to hold the identification line succeeds, and the SSH field of what it returns is that line's version. |
| Banner.FieldsOnlyForThreeLabels | src/banner.rs:182-188 | A grab yields fields only when the resolved protocol is HTTP, HTTPS, SSH or FTP. |
| Banner.AutoUnparsablePort | src/banner.rs:84 | With `Auto`, a port that is not a `u16` is grabbed exactly as port "80" is. |
| Cli.HostFromOpts | src/main.rs:20-42 | One argument without ':' is a port on 0.0.0.0. One argument with ':' succeeds exactly when it holds a single ':'; the host and port are then colon-free and rejoin to the argument. Otherwise it fails with "Invalid host:port format". Two arguments are host and port. Any other count fails with "Missing host or invalid format". |
| Cli.HostPortRoundTrip | src/main.rs:24-27 | "host:port" splits back into host and port whenever neither contains ':'. |
| Cli.HostFromOptsExamples | src/main.rs:254-273 | ["8080"], ["192.168.1.1", "8080"] and ["192.168.1.1:8080"] give the pairs the tests expect. |
| Cli.HostFromOptsTwoColons | src/main.rs:26-30 | A single argument with two or more ':' is the host:port error. |
| Cli.PortsOf | src/main.rs:50-54 | The attempted ports (`Attempted` of a list is `PortsOf` its comma-separated tokens) are never more than the tokens and never empty. |
| Cli.PortsOfPrefix | src/main.rs:51-54 | Each further token adds its trimmed form to the ports, or adds nothing when it is blank. |
| Cli.AttemptedAppend | src/main.rs:50-54 | The ports of two lists joined by a comma are the first list's ports followed by the second's. |
| Cli.AttemptedToken | src/main.rs:51-54 | A list without a comma asks for its trimmed self, or for nothing when it is blank. |
| Cli.AttemptedPadded | src/main.rs:51 | A token padded with white space asks for the bare token. |
| Cli.AttemptedSkipsBlank | src/main.rs:52-54 | A blank token between two commas asks for nothing. |
| Cli.AttemptedExample | src/main.rs:50-54 | A list shaped like "21,,22, 23" asks for its three tokens, in order. |
| Cli.AttemptOpts | src/main.rs:59-65 | Each attempt keeps the base timeout, protocol and verbosity. When the scan's host is the base host, the options differ from the base only in the port. |
| Cli.Separator | src/main.rs:57 | The separator is exactly fifty '=' characters. |
| Cli.Sections | src/main.rs:50-75 | There is exactly one section per attempted port. |
| Cli.ReportIsSections | src/main.rs:50-78 | The `Report` is the concatenation of the `Sections`, one per attempted port, in order. A `Section` is the `Header` line naming host and port, the separator, the `OutcomeLine` and a blank line. Each section depends only on its own port's outcome, so an error never stops later ports. |
| Cli.GrabEach | src/main.rs:50-76 | The loop over the comma-separated tokens builds exactly the report of the attempted ports. Each section is built from the grab of that port's options. |
| Cli.GrabMultipleBanners | src/main.rs:44-79 | The scan always returns `Ok`, holding the report of the attempted ports of the list. |

## Left out

- Name resolution, `connect_timeout` and the socket timeouts (`src/banner.rs:69-95`) are network I/O. A grab receives the outcome of connecting instead. A stall that ends in a read timeout is a property of the `Peer`. The `timeout` and `verbose` options have no effect in the model.
- Address parsing is not modelled. In the source, `to_socket_addrs` (`src/banner.rs:76`) rejects a port that is not a `u16` before resolution runs, unless the port text itself holds a ':'. So the fallback to 80 only decides the strategy in that case. `Banner.AutoUnparsablePort` states the rule of `src/banner.rs:84` on its own.
- A zero timeout is not modelled. `connect_timeout` (`src/banner.rs:93`) rejects it before any read or write, so it is one more connection error.
- A peer whose input never ends is not modelled. The model's `Peer` holds a finite text, so the header loop (`src/banner.rs:118-125`) and each `read_line` (`src/banner.rs:120`, `134`, `152`) end after finitely many reads. In the source, a peer that keeps sending non-blank header lines, or trickles bytes without a '\n' faster than the read timeout (`src/banner.rs:94`), keeps the grab reading without bound. The per-read timeout does not bound the loop as a whole.
- `read_line` (`src/banner.rs:120`, `134`, `152`) fails with `InvalidData` when a line is not valid UTF-8. The model has no encoding, so it returns such a line as a banner.
- Unicode `to_lowercase` is modelled as ASCII-only lower-casing (`Text.AsciiLower`). No character outside ASCII lower-cases to one of the ASCII letters the source's keywords use, so the hint parser and the header tests decide the same way.
- `String::from_utf8_lossy` is left out. Bytes and characters are the same in the model, so a read that splits a multi-byte character is not modelled.
- Streams.Connection.ReadLine and Streams.Connection.Read: on an error the model leaves the pending input unchanged. `BufReader` may already have buffered some of it. The grab discards the reader after an error, so this affects no result.
- Terminal output is left out: `println!`, the `log` calls, and ANSI colours from the `colored` crate. The printed record is returned as a `BannerInfo`, and the report text is modelled without colour codes.
- `save_to_file` and the logger setup and argument dispatch in `main` (`src/main.rs:81-229`) are left out. They are file I/O and process-wide glue code.
- `src/input.rs` holds only `clap` declarations. `src/unixshell.rs` spawns a shell over a socket. The listener module is not part of this model.

=== FILE: banner.dfy ===
/** Banner grabbing: the per-protocol capture strategies, the report of
    what was captured, and the extraction of labelled fields from it. What
    the source prints to the terminal is returned here as a `BannerInfo`. */
module Banner {
  import opened Text
  import opened Wrappers
  import opened Protocols
  import opened Streams

  /** The options of one grab (`BannerOpts`). */
  datatype BannerOpts = BannerOpts(host: String, port: String, timeout: nat, protocol: Protocol, verbose: bool)

  /** One labelled piece of information pulled out of a banner. */
  datatype Field = Field(name: String, value: String)

  /** What `print_banner_info` shows: the protocol label, the trimmed banner
      and the extracted fields, in the order they are printed. */
  datatype BannerInfo = BannerInfo(protocol: String, banner: String, fields: seq<Field>)

  /** The size of the buffer the single-read strategies read into. */
  const BufferSize: nat := 1024

  // ---------------------------------------------------------------------
  // Extraction
  // ---------------------------------------------------------------------

  /** `split_once(':')` keeping the second half; "" when there is no ':'. */
  function AfterColon(line: String): String {
    match IndexOf(line, ':')
    case None => ""
    case Some(i) => line[i + 1..]
  }

  /** When the lower-cased line starts with a colon-terminated keyword of
      letters and dashes, the line's first ':' is the keyword's. */
  lemma ColonOfKeyword(line: String, keyword: String)
    requires |keyword| > 0 && keyword[|keyword| - 1] == ':'
    requires forall j :: 0 <= j < |keyword| - 1 ==> 'a' <= keyword[j] <= 'z' || keyword[j] == '-'
    requires StartsWith(AsciiLower(line), keyword)
    ensures AfterColon(line) == line[|keyword|..]
  {
    var k := |keyword| - 1;
    assert AsciiLower(line)[k] == ':';
    assert line[k] == ':';
    forall j | 0 <= j < k
      ensures line[..k][j] != ':'
    {
      assert AsciiLower(line)[j] == keyword[j];
    }
    IndexOfAt(line, ':', k);
  }

  lemma ServerColon(line: String)
    requires StartsWith(AsciiLower(line), "server:")
    ensures AfterColon(line) == line[7..]
  {
    ColonOfKeyword(line, "server:");
  }

  lemma PoweredByColon(line: String)
    requires StartsWith(AsciiLower(line), "x-powered-by:")
    ensures AfterColon(line) == line[13..]
  {
    ColonOfKeyword(line, "x-powered-by:");
  }

  /** One line of `extract_http_info`: a `server:` line (in any case) gives
      a "Server" field, otherwise an `x-powered-by:` line gives a "Powered
      by" field; the value is the trimmed text after the keyword. */
  function HttpField(line: String): (f: Option<Field>)
    ensures f.Some? <==> StartsWith(AsciiLower(line), "server:") || StartsWith(AsciiLower(line), "x-powered-by:")
    ensures StartsWith(AsciiLower(line), "server:") ==> f == Some(Field("Server", Trim(line[7..])))
    ensures (!StartsWith(AsciiLower(line), "server:") && StartsWith(AsciiLower(line), "x-powered-by:"))
              ==> f == Some(Field("Powered by", Trim(line[13..])))
    ensures f.Some? ==> f.value.name == "Server" || f.value.name == "Powered by"
  {
    var lower := AsciiLower(line);
    if StartsWith(lower, "server:") then
      ServerColon(line);
      Some(Field("Server", Trim(AfterColon(line))))
    else if StartsWith(lower, "x-powered-by:") then
      PoweredByColon(line);
      Some(Field("Powered by", Trim(AfterColon(line))))
    else None
  }

  function OptionToSeq(f: Option<Field>): seq<Field> {
    match f
    case Some(x) => [x]
    case None => []
  }

  /** The fields of a sequence of header lines, one per matching line. */
  function HttpFields(lines: seq<String>): (fs: seq<Field>)
    ensures |fs| <= |lines|
    ensures forall k :: 0 <= k < |fs| ==> fs[k].name == "Server" || fs[k].name == "Powered by"
  {
    if lines == [] then []
    else
      var head, tail := OptionToSeq(HttpField(lines[0])), HttpFields(lines[1..]);
      HttpNamesAppend(head, tail);
      head + tail
  }

  lemma HttpNamesAppend(a: seq<Field>, b: seq<Field>)
    requires forall k :: 0 <= k < |a| ==> a[k].name == "Server" || a[k].name == "Powered by"
    requires forall k :: 0 <= k < |b| ==> b[k].name == "Server" || b[k].name == "Powered by"
    ensures forall k :: 0 <= k < |a + b| ==> (a + b)[k].name == "Server" || (a + b)[k].name == "Powered by"
  {
  }

  /** Fields come out in line order: the fields of two runs of lines are
      the fields of the first run followed by those of the second. */
  lemma {:induction false} HttpFieldsAppend(a: seq<String>, b: seq<String>)
    ensures HttpFields(a + b) == HttpFields(a) + HttpFields(b)
  {
    if a == [] {
      assert a + b == b;
    } else {
      assert (a + b)[1..] == a[1..] + b;
      HttpFieldsAppend(a[1..], b);
    }
  }

  /** No line matching gives no field. */
  lemma {:induction false} HttpFieldsNone(lines: seq<String>)
    requires forall j :: 0 <= j < |lines| ==> HttpField(lines[j]).None?
    ensures HttpFields(lines) == []
  {
    if lines != [] {
      HttpFieldsNone(lines[1..]);
    }
  }

  /** `extract_http_info`: at most one field per line of the banner, each
      one a "Server" or a "Powered by" field. */
  function ExtractHttp(banner: String): (fs: seq<Field>)
    ensures |fs| <= |Lines(banner)|
    ensures forall k :: 0 <= k < |fs| ==> fs[k].name == "Server" || fs[k].name == "Powered by"
  {
    HttpFields(Lines(banner))
  }

  /** `extract_ssh_info`: only the first line is examined, against the
      case-sensitive prefix "SSH-"; a match yields that line trimmed. */
  function ExtractSsh(banner: String): (fs: seq<Field>)
    ensures |fs| <= 1
    ensures fs != [] <==> banner != [] && StartsWith(Lines(banner)[0], "SSH-")
  {
    var lines := Lines(banner);
    if lines != [] && StartsWith(lines[0], "SSH-") then [Field("SSH Version", Trim(lines[0]))] else []
  }

  /** What follows the first line of a banner never affects its SSH field. */
  lemma SshFirstLineOnly(first: String, rest: String)
    requires '\n' !in first
    ensures ExtractSsh(first + "\n" + rest) == ExtractSsh(first + "\n")
  {
    LinesCons(first, rest);
    LinesCons(first, "");
    assert first + "\n" + "" == first + "\n";
  }

  /** `extract_ftp_info`: a banner starting with "220" yields exactly one
      field, the trimmed banner; any other banner yields none. */
  function ExtractFtp(banner: String): (fs: seq<Field>)
    ensures |fs| <= 1
    ensures fs != [] <==> StartsWith(banner, "220")
  {
    if StartsWith(banner, "220") then [Field("FTP Ready", Trim(banner))] else []
  }

  /** A `server:` header, in any case, yields its trimmed value. */
  lemma ServerHeader(name: String, value: String)
    requires AsciiLower(name) == "server:"
    requires value != [] ==> !IsWhitespace(value[0]) && !IsWhitespace(value[|value| - 1])
    ensures HttpField(name + " " + value) == Some(Field("Server", value))
  {
    var line := name + " " + value;
    ServerLine(name, value);
    TrimPadded(" ", value, "");
    assert HttpField(line) == Some(Field("Server", Trim(line[7..])));
  }

  lemma ServerLine(name: String, value: String)
    requires AsciiLower(name) == "server:"
    ensures StartsWith(AsciiLower(name + " " + value), "server:")
    ensures (name + " " + value)[7..] == " " + value + ""
  {
    AsciiLowerAppend(name, " " + value);
    AppendAssoc(name, " ", value);
  }


  /** A response whose status line is followed by "Server: <value>" yields
      one "Server" field holding the value, with the CRLF line ends dropped. */
  lemma HttpServerResponse(status: String, value: String)
    requires '\n' !in status && '\n' !in value
    requires HttpField(status).None?
    requires value != [] && !IsWhitespace(value[0]) && !IsWhitespace(value[|value| - 1])
    ensures ExtractHttp(status + "\r\n" + ("Server: " + value) + "\r\n") == [Field("Server", value)]
  {
    var server := "Server: " + value;
    assert '\n' !in server by {
      assert forall i | 8 <= i < |server| :: server[i] == value[i - 8];
    }
    assert Lines(status + "\r\n" + server + "\r\n") == [status, server] by {
      assert status + "\r\n" + server + "\r\n" == status + "\r\n" + (server + "\r\n" + "");
      LinesCrlf(status, server + "\r\n" + "");
      LinesCrlf(server, "");
    }
    HttpFieldsOfTwo(status, value);
  }

  lemma HttpFieldsOfTwo(status: String, value: String)
    requires HttpField(status).None?
    requires value != [] && !IsWhitespace(value[0]) && !IsWhitespace(value[|value| - 1])
    ensures HttpFields([status, "Server: " + value]) == [Field("Server", value)]
  {
    var server := "Server: " + value;
    assert HttpField(server) == Some(Field("Server", value)) by {
      assert AsciiLower("Server:") == "server:";
      assert server == "Server:" + " " + value;
      ServerHeader("Server:", value);
    }
    HttpFieldsPair(status, server);
  }

  lemma HttpFieldsPair(a: String, b: String)
    ensures HttpFields([a, b]) == OptionToSeq(HttpField(a)) + OptionToSeq(HttpField(b))
  {
    assert [a, b][1..] == [b] && [b][1..] == [];
  }

  /** An SSH identification line is reported without its CRLF. */
  lemma SshVersionLine(version: String)
    requires StartsWith(version, "SSH-") && '\n' !in version
    requires !IsWhitespace(version[|version| - 1])
    ensures ExtractSsh(version + "\r\n") == [Field("SSH Version", version)]
  {
    assert version + "\r\n" == (version + "\r") + "\n" + "";
    LinesCons(version + "\r", "");
    assert StripCr(version + "\r") == version;
    assert Trim(version) == version by {
      assert version == "" + version + "";
      TrimPadded("", version, "");
    }
  }

  /** A "220" greeting is reported without its CRLF; a greeting preceded by
      a space yields nothing, since the prefix test is on the untrimmed
      banner. */
  lemma FtpGreeting(rest: String)
    requires rest != [] ==> !IsWhitespace(rest[|rest| - 1])
    ensures ExtractFtp("220" + rest + "\r\n") == [Field("FTP Ready", "220" + rest)]
    ensures ExtractFtp(" 220" + rest) == []
  {
    var greeting := "220" + rest;
    assert ("220" + rest + "\r\n")[..3] == "220";
    assert Trim(greeting + "\r\n") == greeting by {
      assert greeting + "\r\n" == "" + greeting + "\r\n";
      assert AllWhitespace("\r\n");
      TrimPadded("", greeting, "\r\n");
    }
    assert (" 220" + rest)[0] == ' ';
  }

  /** `print_banner_info`: the label, the trimmed banner, and fields only for
      the labels "HTTP", "SSH" and "FTP". */
  function PrintBannerInfo(protocol: String, banner: String): (info: BannerInfo)
    ensures info.protocol == protocol && info.banner == Trim(banner)
    ensures info.fields != [] ==> protocol == "HTTP" || protocol == "SSH" || protocol == "FTP"
    ensures protocol == "HTTP" ==> info.fields == ExtractHttp(banner)
    ensures protocol == "SSH" ==> info.fields == ExtractSsh(banner)
    ensures protocol == "FTP" ==> info.fields == ExtractFtp(banner)
    ensures protocol != "HTTP" && protocol != "SSH" && protocol != "FTP" ==> info.fields == []
  {
    var fields :=
      if protocol == "HTTP" then ExtractHttp(banner)
      else if protocol == "SSH" then ExtractSsh(banner)
      else if protocol == "FTP" then ExtractFtp(banner)
      else [];
    BannerInfo(protocol, Trim(banner), fields)
  }

  // ---------------------------------------------------------------------
  // What each strategy captures
  // ---------------------------------------------------------------------

  /** The request `grab_http_banner` writes before reading. */
  function HeadRequest(host: String): String {
    "HEAD / HTTP/1.1\r\nHost: " + host + "\r\nUser-Agent: netcatr/1.0\r\nConnection: close\r\n\r\n"
  }

  /** Puts `pre` in front of a successful result. */
  function Prefixed(pre: String, r: Result<String, IoError>): Result<String, IoError> {
    match r
    case Ok(s) => Ok(pre + s)
    case Err(e) => Err(e)
  }

  lemma PrefixedTwice(a: String, b: String, r: Result<String, IoError>)
    ensures Prefixed(a, Prefixed(b, r)) == Prefixed(a + b, r)
  {
    if r.Ok? {
      assert a + (b + r.value) == (a + b) + r.value;
    }
  }

  /** The response headers: lines read one at a time and kept, up to the
      first line that is empty or blank once trimmed (not kept); a read
      error anywhere discards everything. */
  function HeaderBlock(pending: String, ending: Ending): (r: Result<String, IoError>)
    ensures r.Ok? ==> StartsWith(pending, r.value)
    decreases |pending|
  {
    match LineOf(pending, ending)
    case Err(e) => Err(e)
    case Ok(line) =>
      if |line| == 0 || Trim(line) == [] then Ok([])
      else
        match HeaderBlock(pending[|line|..], ending)
        case Err(e) => Err(e)
        case Ok(rest) =>
          StartsWithConcat(pending, line, rest);
          Ok(line + rest)
  }

  /** What the header loop leaves unread: the input after the blank line, or
      after the empty read at the end of the stream, that ends the block; or,
      when a read fails, the input that read left. Always a suffix of what
      the peer had pending. */
  function HeaderRest(pending: String, ending: Ending): (r: String)
    ensures |r| <= |pending|
    decreases |pending|
  {
    match LineOf(pending, ending)
    case Err(_) => pending
    case Ok(line) =>
      if |line| == 0 || Trim(line) == [] then pending[|line|..]
      else HeaderRest(pending[|line|..], ending)
  }

  /** The unread input is the tail of what the peer had pending. */
  lemma {:induction false} HeaderRestSuffix(pending: String, ending: Ending)
    ensures HeaderRest(pending, ending) == pending[|pending| - |HeaderRest(pending, ending)|..]
    decreases |pending|
  {
    var k, more := HeaderRestStep(pending, ending);
    if more {
      var next := pending[k..];
      HeaderRestSuffix(next, ending);
      SuffixOfSuffix(pending, k, next, HeaderRest(next, ending));
    } else {
      SuffixFrom(pending, k);
    }
  }

  /** One pass of the header loop: it either stops, leaving `pending[k..]`
      unread, or reads a kept line of length `k` and goes on. */
  lemma HeaderRestStep(pending: String, ending: Ending) returns (k: nat, more: bool)
    ensures k <= |pending|
    ensures more ==> 0 < k && HeaderRest(pending, ending) == HeaderRest(pending[k..], ending)
    ensures !more ==> HeaderRest(pending, ending) == pending[k..]
  {
    match LineOf(pending, ending)
    case Err(_) =>
      FailedReadRest(pending, ending);
      k, more := 0, false;
    case Ok(line) =>
      if |line| == 0 || Trim(line) == [] {
        BlankLineParts(pending, ending, line);
        k, more := |line|, false;
      } else {
        KeptLineParts(pending, ending, line);
        k, more := |line|, true;
      }
  }



  lemma SuffixFrom(s: String, k: nat)
    requires k <= |s|
    ensures s[k..] == s[|s| - |s[k..]|..]
  {
  }

  lemma SuffixOfSuffix(s: String, k: nat, next: String, r: String)
    requires k <= |s| && next == s[k..] && |r| <= |next| && r == next[|next| - |r|..]
    ensures r == s[|s| - |r|..]
  {
  }

  /** The line that ends the header block: the blank line, or the empty
      read at the end of the stream; empty when a read fails first. */
  function HeaderGap(pending: String, ending: Ending): (r: String)
    ensures AllWhitespace(r)
    decreases |pending|
  {
    match LineOf(pending, ending)
    case Err(_) => []
    case Ok(line) =>
      if |line| == 0 || Trim(line) == [] then line
      else HeaderGap(pending[|line|..], ending)
  }

  /** A successful header loop splits what the peer had pending into the
      header block it returns, the blank line that ended it, and the input it
      leaves unread, in that order. */
  lemma {:induction false} HeaderParts(pending: String, ending: Ending)
    requires HeaderBlock(pending, ending).Ok?
    ensures pending == HeaderBlock(pending, ending).value + HeaderGap(pending, ending) + HeaderRest(pending, ending)
    decreases |pending|
  {
    match LineOf(pending, ending)
    case Ok(line) =>
      if |line| == 0 || Trim(line) == [] {
        BlankLineParts(pending, ending, line);
        BlankSplit(pending, line);
      } else {
        var next := pending[|line|..];
        HeaderParts(next, ending);
        HeaderBlockUnfold(pending, ending, line);
        KeptLineParts(pending, ending, line);
        ConcatParts(pending, line, next, HeaderBlock(next, ending).value, HeaderGap(next, ending), HeaderRest(next, ending));
      }
  }

  lemma BlankLineParts(pending: String, ending: Ending, line: String)
    requires LineOf(pending, ending) == Ok(line) && (|line| == 0 || Trim(line) == [])
    ensures HeaderBlock(pending, ending) == Ok([]) && HeaderGap(pending, ending) == line
    ensures HeaderRest(pending, ending) == pending[|line|..]
  {
  }

  lemma FailedReadRest(pending: String, ending: Ending)
    requires LineOf(pending, ending).Err?
    ensures HeaderBlock(pending, ending) == Err(LineOf(pending, ending).error)
    ensures HeaderRest(pending, ending) == pending
  {
  }

  lemma KeptLineParts(pending: String, ending: Ending, line: String)
    requires LineOf(pending, ending) == Ok(line) && line != [] && Trim(line) != []
    ensures HeaderGap(pending, ending) == HeaderGap(pending[|line|..], ending)
    ensures HeaderRest(pending, ending) == HeaderRest(pending[|line|..], ending)
  {
  }

  lemma BlankSplit(s: String, line: String)
    requires StartsWith(s, line)
    ensures s == [] + line + s[|line|..]
  {
    assert s == s[..|line|] + s[|line|..];
  }

  lemma ConcatParts(s: String, line: String, next: String, h: String, g: String, rest: String)
    requires |line| <= |s| && next == s[|line|..] && line == s[..|line|] && next == h + g + rest
    ensures s == (line + h) + g + rest
  {
    assert s == line + next;
  }


  /** `str::split_inclusive('\n')`: the pieces `read_line` returns one by
      one from a closed stream, each with its '\n'. */
  function Chunks(s: String): seq<String>
    decreases |s|
  {
    if s == [] then []
    else
      match IndexOf(s, '\n')
      case None => [s]
      case Some(i) => [s[..i + 1]] + Chunks(s[i + 1..])
  }

  function Concat(ss: seq<String>): String {
    if ss == [] then [] else ss[0] + Concat(ss[1..])
  }

  /** The longest prefix of `chunks` with no blank chunk. */
  function TakeNonBlank(chunks: seq<String>): seq<String> {
    if chunks == [] || Trim(chunks[0]) == [] then [] else [chunks[0]] + TakeNonBlank(chunks[1..])
  }

  /** Reading headers from a closed stream keeps exactly the chunks before
      the first blank one, in order, and the blank one is not kept. */
  lemma {:induction false} HeaderBlockClosed(pending: String)
    ensures HeaderBlock(pending, Closed) == Ok(Concat(TakeNonBlank(Chunks(pending))))
    decreases |pending|
  {
    if pending != [] {
      match IndexOf(pending, '\n')
      case None => HeaderBlockLastLine(pending);
      case Some(i) =>
        var line, rest := pending[..i + 1], pending[i + 1..];
        HeaderBlockStep(pending, i);
        KeptChunksStep(pending, i);
        if Trim(line) != [] {
          HeaderBlockClosed(rest);
        }
    }
  }

  lemma HeaderBlockLastLine(pending: String)
    requires pending != [] && '\n' !in pending
    ensures HeaderBlock(pending, Closed) == Ok(Concat(TakeNonBlank(Chunks(pending))))
  {
    LastChunk(pending);
    if Trim(pending) != [] {
      LastLineKept(pending);
      assert TakeNonBlank([pending]) == [pending];
      ConcatCons(pending, []);
      assert pending + [] == pending;
    } else {
      assert TakeNonBlank([pending]) == [];
    }
  }

  lemma LastChunk(pending: String)
    requires pending != [] && '\n' !in pending
    ensures Chunks(pending) == [pending] && LineOf(pending, Closed) == Ok(pending)
  {
  }

  lemma LastLineKept(pending: String)
    requires pending != [] && LineOf(pending, Closed) == Ok(pending) && Trim(pending) != []
    ensures HeaderBlock(pending, Closed) == Ok(pending)
  {
    HeaderBlockUnfold(pending, Closed, pending);
    assert pending[|pending|..] == [];
    assert HeaderBlock([], Closed) == Ok([]);
    assert pending + [] == pending;
  }

  lemma ChunksStep(pending: String, i: nat)
    requires IndexOf(pending, '\n') == Some(i)
    ensures Chunks(pending) == [pending[..i + 1]] + Chunks(pending[i + 1..])
  {
  }

  lemma HeaderBlockStep(pending: String, i: nat)
    requires IndexOf(pending, '\n') == Some(i)
    ensures Trim(pending[..i + 1]) == [] ==> HeaderBlock(pending, Closed) == Ok([])
    ensures Trim(pending[..i + 1]) != [] ==>
              HeaderBlock(pending, Closed) == Prefixed(pending[..i + 1], HeaderBlock(pending[i + 1..], Closed))
  {
    var line := pending[..i + 1];
    assert LineOf(pending, Closed) == Ok(line);
    assert pending[|line|..] == pending[i + 1..];
    if Trim(line) != [] {
      HeaderBlockUnfold(pending, Closed, line);
    }
  }

  lemma KeptChunksStep(pending: String, i: nat)
    requires IndexOf(pending, '\n') == Some(i)
    ensures Trim(pending[..i + 1]) == [] ==> TakeNonBlank(Chunks(pending)) == []
    ensures Trim(pending[..i + 1]) != [] ==>
              Concat(TakeNonBlank(Chunks(pending)))
              == pending[..i + 1] + Concat(TakeNonBlank(Chunks(pending[i + 1..])))
  {
    var line, rest := pending[..i + 1], pending[i + 1..];
    ChunksStep(pending, i);
    if Trim(line) != [] {
      assert TakeNonBlank([line] + Chunks(rest)) == [line] + TakeNonBlank(Chunks(rest));
      ConcatCons(line, TakeNonBlank(Chunks(rest)));
    }
  }

  /** A kept line is followed by the header block of the rest. */
  lemma HeaderBlockUnfold(pending: String, ending: Ending, line: String)
    requires LineOf(pending, ending) == Ok(line) && line != [] && Trim(line) != []
    ensures HeaderBlock(pending, ending) == Prefixed(line, HeaderBlock(pending[|line|..], ending))
  {
  }

  lemma ConcatCons(s: String, ss: seq<String>)
    ensures Concat([s] + ss) == s + Concat(ss)
  {
    assert ([s] + ss)[1..] == ss;
  }

  /** A stalled stream only ever turns a header block into a timeout: when
      reading succeeds, it reads what a closed stream would have given. */
  lemma {:induction false} HeaderBlockStalls(pending: String, e: IoError)
    ensures HeaderBlock(pending, Stalls(e)).Ok? ==> HeaderBlock(pending, Stalls(e)) == HeaderBlock(pending, Closed)
    ensures HeaderBlock(pending, Stalls(e)).Err? ==> HeaderBlock(pending, Stalls(e)).error == e
    decreases |pending|
  {
    match LineOf(pending, Stalls(e))
    case Err(_) =>
    case Ok(line) =>
      if |line| != 0 && Trim(line) != [] {
        HeaderBlockStalls(pending[|line|..], e);
      }
  }

  /** What the single `read` of the SSH, Telnet and Raw strategies captures:
      at most a buffer's worth, taken from the front of what the peer sent,
      and empty only at the end of a closed stream. */
  function FirstRead(pending: String, burst: Pos, ending: Ending): (r: Result<String, IoError>)
    ensures r.Ok? ==> |r.value| <= BufferSize && StartsWith(pending, r.value)
    ensures r.Ok? && r.value == [] ==> pending == []
  {
    match ReadCount(pending, burst, ending, BufferSize)
    case Err(e) => Err(e)
    case Ok(n) => Ok(pending[..n])
  }

  /** What the strategy for a resolved protocol captures from a peer. */
  function Capture(p: Protocol, peer: Peer): Result<String, IoError> {
    match p
    case Http | Https =>
      if peer.writeFailure.Some? then Err(peer.writeFailure.value) else HeaderBlock(peer.data, peer.ending)
    case Ftp | Smtp => LineOf(peer.data, peer.ending)
    case Ssh | Telnet | Raw | Auto => FirstRead(peer.data, peer.burst, peer.ending)
  }

  /** The outcome `grab_banner` reports for a connection outcome. */
  function GrabOutcome(opts: BannerOpts, connect: Result<Peer, IoError>): Result<BannerInfo, IoError> {
    match connect
    case Err(e) => Err(e)
    case Ok(peer) =>
      var p := Resolve(opts.protocol, opts.port);
      match Capture(p, peer)
      case Err(e) => Err(e)
      case Ok(text) => Ok(PrintBannerInfo(Label(p), text))
  }

  // ---------------------------------------------------------------------
  // The grab strategies
  // ---------------------------------------------------------------------

  /** `grab_http_banner`: writes a HEAD request, then reads header lines
      until the first blank line or the end of the stream. */
  method GrabHttpBanner(conn: Connection, host: String) returns (r: Result<BannerInfo, IoError>)
    modifies conn
    ensures conn.writeFailure.Some? ==> r == Err(conn.writeFailure.value)
    ensures conn.writeFailure.Some? ==> conn.sent == old(conn.sent) && conn.pending == old(conn.pending)
    ensures conn.writeFailure.None? ==> conn.sent == old(conn.sent) + HeadRequest(host)
    ensures conn.writeFailure.None? ==> conn.pending == HeaderRest(old(conn.pending), conn.ending)
    ensures conn.writeFailure.None? ==>
              r == match HeaderBlock(old(conn.pending), conn.ending)
                   case Err(e) => Err(e)
                   case Ok(h) => Ok(PrintBannerInfo("HTTP", h))
  {
    var written := conn.WriteAll(HeadRequest(host));
    if written.Err? {
      return Err(written.error);
    }
    var response := "";
    assert Prefixed(response, HeaderBlock(conn.pending, conn.ending)) == HeaderBlock(conn.pending, conn.ending) by {
      assert forall t: String :: response + t == t;
    }
    while true
      invariant conn.sent == old(conn.sent) + HeadRequest(host)
      invariant HeaderBlock(old(conn.pending), conn.ending) == Prefixed(response, HeaderBlock(conn.pending, conn.ending))
      invariant HeaderRest(old(conn.pending), conn.ending) == HeaderRest(conn.pending, conn.ending)
      decreases |conn.pending|
    {
      ghost var before := conn.pending;
      var line := conn.ReadLine();
      if line.Err? {
        FailedReadRest(before, conn.ending);
        return Err(line.error);
      }
      if |line.value| == 0 || Trim(line.value) == [] {
        BlankLineParts(before, conn.ending, line.value);
        break;
      }
      HeaderBlockUnfold(before, conn.ending, line.value);
      KeptLineParts(before, conn.ending, line.value);
      PrefixedTwice(response, line.value, HeaderBlock(conn.pending, conn.ending));
      response := response + line.value;
    }
    assert response + [] == response;
    r := Ok(PrintBannerInfo("HTTP", response));
  }

  /** `grab_ftp_banner` and `grab_smtp_banner`: one `read_line`, which is the
      whole banner. */
  method GrabLineBanner(conn: Connection, protocol: String) returns (r: Result<BannerInfo, IoError>)
    modifies conn
    ensures r == match LineOf(old(conn.pending), conn.ending)
                 case Err(e) => Err(e)
                 case Ok(line) => Ok(PrintBannerInfo(protocol, line))
    ensures conn.pending == match LineOf(old(conn.pending), conn.ending)
                            case Err(_) => old(conn.pending)
                            case Ok(line) => old(conn.pending)[|line|..]
    ensures conn.sent == old(conn.sent)
  {
    var line := conn.ReadLine();
    if line.Err? {
      return Err(line.error);
    }
    r := Ok(PrintBannerInfo(protocol, line.value));
  }

  /** `grab_ssh_banner`, `grab_telnet_banner` and `grab_raw_banner`: exactly
      one `read` into a fresh 1024-byte buffer; what it got is the banner. */
  method GrabBoundedBanner(conn: Connection, protocol: String) returns (r: Result<BannerInfo, IoError>)
    modifies conn
    ensures r == match FirstRead(old(conn.pending), conn.burst, conn.ending)
                 case Err(e) => Err(e)
                 case Ok(b) => Ok(PrintBannerInfo(protocol, b))
    ensures r.Ok? ==> |r.value.banner| <= BufferSize
    ensures conn.pending == match FirstRead(old(conn.pending), conn.burst, conn.ending)
                            case Err(_) => old(conn.pending)
                            case Ok(b) => old(conn.pending)[|b|..]
    ensures conn.sent == old(conn.sent)
  {
    var buffer := new char[BufferSize](_ => '\0');
    var count := conn.Read(buffer);
    if count.Err? {
      return Err(count.error);
    }
    var banner := buffer[..count.value];
    r := Ok(PrintBannerInfo(protocol, banner));
  }

  /** `grab_banner`, from the point where the connection outcome is known:
      a failed connection is the result; otherwise the protocol is resolved
      and its strategy runs on the new connection. */
  method GrabBanner(opts: BannerOpts, connect: Result<Peer, IoError>) returns (r: Result<BannerInfo, IoError>)
    ensures r == GrabOutcome(opts, connect)
    ensures connect.Err? ==> r == Err(connect.error)
    ensures r.Ok? ==> r.value.protocol == Label(Resolve(opts.protocol, opts.port))
  {
    if connect.Err? {
      return Err(connect.error);
    }
    var protocol := Resolve(opts.protocol, opts.port);
    var conn := new Connection(connect.value);
    if protocol == Http || protocol == Https {
      r := GrabHttpBanner(conn, opts.host);
    } else if protocol == Ftp {
      r := GrabLineBanner(conn, "FTP");
    } else if protocol == Ssh {
      r := GrabBoundedBanner(conn, "SSH");
    } else if protocol == Smtp {
      r := GrabLineBanner(conn, "SMTP");
    } else if protocol == Telnet {
      r := GrabBoundedBanner(conn, "Telnet");
    } else {
      // Raw, and Auto, which resolution has already replaced
      r := GrabBoundedBanner(conn, "Raw");
    }
  }

  // ---------------------------------------------------------------------
  // Properties of a grab
  // ---------------------------------------------------------------------

  /** The single-read strategies never capture more than the buffer holds. */
  lemma BoundedCapture(p: Protocol, peer: Peer)
    requires p == Ssh || p == Telnet || p == Raw
    ensures Capture(p, peer).Ok? ==> |Capture(p, peer).value| <= BufferSize
  {
  }

  /** HTTPS is captured and labelled exactly like HTTP, so it gets the HTTP
      extraction. */
  lemma HttpsIsHttp(opts: BannerOpts, connect: Result<Peer, IoError>)
    requires opts.protocol == Https
    ensures GrabOutcome(opts, connect) == GrabOutcome(opts.(protocol := Http), connect)
    ensures GrabOutcome(opts, connect).Ok? ==> GrabOutcome(opts, connect).value.protocol == "HTTP"
  {
    match connect
    case Err(_) =>
    case Ok(peer) =>
      assert Resolve(opts.protocol, opts.port) == Https;
      assert Resolve(Http, opts.port) == Http;
      assert Capture(Https, peer) == Capture(Http, peer);
  }

  /** Fields are extracted only for HTTP, HTTPS, SSH and FTP. */
  /** An HTTP or HTTPS grab of a server that answers with a status line and
      a `Server:` header reports that header's value, whatever follows the
      blank line. */
  lemma GrabHttpServer(opts: BannerOpts, peer: Peer, status: String, value: String, rest: String)
    requires opts.protocol == Http || opts.protocol == Https
    requires peer.writeFailure.None?
    requires peer.data == status + "\r\n" + ("Server: " + value) + "\r\n" + "\r\n" + rest
    requires '\n' !in status && '\n' !in value && Trim(status) != [] && HttpField(status).None?
    requires value != [] && !IsWhitespace(value[0]) && !IsWhitespace(value[|value| - 1])
    ensures GrabOutcome(opts, Ok(peer)).Ok?
    ensures GrabOutcome(opts, Ok(peer)).value.protocol == "HTTP"
    ensures GrabOutcome(opts, Ok(peer)).value.fields == [Field("Server", value)]
  {
    var block := status + "\r\n" + ("Server: " + value) + "\r\n";
    ResponseHeader(status, value, rest, peer.ending);
    assert Resolve(opts.protocol, opts.port) == opts.protocol;
    assert Capture(opts.protocol, peer) == Ok(block);
    HttpServerResponse(status, value);
  }

  /** The header loop over a status line, a `Server:` header and a blank
      line collects the first two lines and stops at the blank one. */
  lemma ResponseHeader(status: String, value: String, rest: String, ending: Ending)
    requires '\n' !in status && '\n' !in value && Trim(status) != []
    ensures HeaderBlock(status + "\r\n" + ("Server: " + value) + "\r\n" + "\r\n" + rest, ending)
              == Ok(status + "\r\n" + ("Server: " + value) + "\r\n")
  {
    var server := "Server: " + value;
    var l1, l2 := status + "\r\n", server + "\r\n";
    CrlfLine(status);
    ServerLineKept(value);
    TwoLinesThenBlank(l1, l2, rest, ending);
    Regroup6(status, "\r\n", server, "\r\n", "\r\n", rest);
    Regroup4(status, "\r\n", server, "\r\n");
  }

  lemma TwoLinesThenBlank(l1: String, l2: String, rest: String, ending: Ending)
    requires IsLine(l1) && Trim(l1) != [] && IsLine(l2) && Trim(l2) != []
    ensures HeaderBlock(l1 + (l2 + ("\r\n" + rest)), ending) == Ok(l1 + l2)
  {
    BlankCrlf(rest, ending);
    KeptLine(l2, "\r\n" + rest, ending);
    KeptLine(l1, l2 + ("\r\n" + rest), ending);
    assert l2 + [] == l2;
  }

  /** A line as `read_line` returns it before the end of the input: it ends
      with its only '\n'. */
  predicate IsLine(l: String) {
    l != [] && l[|l| - 1] == '\n' && '\n' !in l[..|l| - 1]
  }

  lemma CrlfLine(line: String)
    requires '\n' !in line
    ensures IsLine(line + "\r\n")
    ensures Trim(line) != [] ==> Trim(line + "\r\n") != []
  {
    var l := line + "\r\n";
    assert l[..|l| - 1] == line + "\r";
    if Trim(line) != [] {
      var i :| 0 <= i < |line| && !IsWhitespace(line[i]);
      assert l[i] == line[i];
    }
  }

  lemma ServerLineKept(value: String)
    requires '\n' !in value
    ensures IsLine("Server: " + value + "\r\n") && Trim("Server: " + value + "\r\n") != []
  {
    var server := "Server: " + value;
    assert '\n' !in server by {
      assert forall i | 8 <= i < |server| :: server[i] == value[i - 8];
    }
    CrlfLine(server);
    assert (server + "\r\n")[0] == 'S';
  }

  /** A bare CRLF ends the header block, whatever follows it. */
  lemma BlankCrlf(rest: String, ending: Ending)
    ensures HeaderBlock("\r\n" + rest, ending) == Ok([])
  {
    CrlfLine("");
    assert "" + "\r\n" == "\r\n";
    LineFirst("\r\n", rest, ending);
    assert AllWhitespace("\r\n");
    BlankLineParts("\r\n" + rest, ending, "\r\n");
  }

  /** A kept header line followed by more input. */
  lemma KeptLine(l: String, rest: String, ending: Ending)
    requires IsLine(l) && Trim(l) != []
    ensures HeaderBlock(l + rest, ending) == Prefixed(l, HeaderBlock(rest, ending))
  {
    LineFirst(l, rest, ending);
    HeaderBlockUnfold(l + rest, ending, l);
    assert (l + rest)[|l|..] == rest;
  }

  /** `read_line` stops at the first '\n'. */
  lemma LineFirst(l: String, rest: String, ending: Ending)
    requires IsLine(l)
    ensures LineOf(l + rest, ending) == Ok(l)
  {
    var s := l + rest;
    assert s[..|l| - 1] == l[..|l| - 1];
    IndexOfAt(s, '\n', |l| - 1);
    assert s[..|l|] == l;
  }

  /** An SSH grab whose one read holds the server's whole identification
      line reports that line's version, whatever else the read holds. */
  lemma GrabSshVersion(opts: BannerOpts, peer: Peer, version: String, rest: String)
    requires opts.protocol == Ssh
    requires peer.data == version + "\r\n" + rest
    requires StartsWith(version, "SSH-") && '\n' !in version && !IsWhitespace(version[|version| - 1])
    requires |version| + 2 <= peer.burst && |version| + 2 <= BufferSize
    ensures GrabOutcome(opts, Ok(peer)).Ok?
    ensures GrabOutcome(opts, Ok(peer)).value.protocol == "SSH"
    ensures GrabOutcome(opts, Ok(peer)).value.fields == [Field("SSH Version", version)]
  {
    SshRead(version, rest, peer.burst, peer.ending);
    SshGrab(opts, peer);
  }

  lemma SshGrab(opts: BannerOpts, peer: Peer)
    requires opts.protocol == Ssh
    ensures FirstRead(peer.data, peer.burst, peer.ending).Ok? ==>
              GrabOutcome(opts, Ok(peer)) == Ok(PrintBannerInfo("SSH", FirstRead(peer.data, peer.burst, peer.ending).value))
  {
    match FirstRead(peer.data, peer.burst, peer.ending)
    case Err(_) =>
    case Ok(t) =>
      assert Resolve(opts.protocol, opts.port) == Ssh;
      assert Capture(Ssh, peer) == Ok(t);
      assert Label(Ssh) == "SSH";
  }

  /** The one read of an SSH identification line that fits the read holds
      the line, so the SSH field is its version. */
  lemma SshRead(version: String, rest: String, burst: Pos, ending: Ending)
    requires StartsWith(version, "SSH-") && '\n' !in version && !IsWhitespace(version[|version| - 1])
    requires |version| + 2 <= burst && |version| + 2 <= BufferSize
    ensures FirstRead(version + "\r\n" + rest, burst, ending).Ok?
    ensures ExtractSsh(FirstRead(version + "\r\n" + rest, burst, ending).value) == [Field("SSH Version", version)]
  {
    var data := version + "\r\n" + rest;
    var n := Min(BufferSize, Min(burst, |data|));
    assert ReadCount(data, burst, ending, BufferSize) == Ok(n);
    var first := version + "\r";
    assert '\n' !in first;
    var captured := data[..n];
    assert captured == first + "\n" + captured[|version| + 2..];
    SshFirstLineOnly(first, captured[|version| + 2..]);
    assert first + "\n" == version + "\r\n";
    SshVersionLine(version);
  }

  lemma FieldsOnlyForThreeLabels(opts: BannerOpts, connect: Result<Peer, IoError>)
    requires GrabOutcome(opts, connect).Ok? && GrabOutcome(opts, connect).value.fields != []
    ensures Resolve(opts.protocol, opts.port) in {Http, Https, Ssh, Ftp}
  {
    LabelHttp(Resolve(opts.protocol, opts.port));
  }

  /** With `Auto`, a port that is not a `u16` is grabbed as port "80" is. */
  lemma AutoUnparsablePort(opts: BannerOpts, connect: Result<Peer, IoError>)
    requires opts.protocol == Auto && ParseU16(opts.port).None?
    ensures GrabOutcome(opts, connect) == GrabOutcome(opts.(port := "80"), connect)
  {
    ResolveUnparsable(opts.port);
  }
}

=== FILE: cli.dfy ===
/** The logic of the command-line entry point: turning the positional
    arguments into a host and a port, and the multi-port scan, which grabs
    one banner per listed port and builds a textual report. The grab itself
    is a parameter of the scan (`grab`), so the report is a function of the
    outcome the grab gives for each port. */
module Cli {
  import opened Text
  import opened Wrappers
  import opened Streams
  import opened Banner

  const HostPortError: String := "Invalid host:port format"
  const MissingHostError: String := "Missing host or invalid format"

  /** `host_from_opts`. One argument without ':' is a port on 0.0.0.0; one
      argument with exactly one ':' is split there into host and port, and
      with more than one ':' it is an error; two arguments are host and
      port; any other count is an error. */
  function HostFromOpts(args: seq<String>): (r: Result<(String, String), String>)
    ensures |args| == 1 && ':' !in args[0] ==> r == Ok(("0.0.0.0", args[0]))
    ensures |args| == 1 && ':' in args[0] ==> (r.Ok? <==> Count(args[0], ':') == 1)
    ensures |args| == 1 && ':' in args[0] && r.Ok? ==>
              r.value.0 + ":" + r.value.1 == args[0] && ':' !in r.value.0 && ':' !in r.value.1
    ensures |args| == 1 && r.Err? ==> r.error == HostPortError
    ensures |args| == 2 ==> r == Ok((args[0], args[1]))
    ensures |args| != 1 && |args| != 2 ==> r == Err(MissingHostError)
  {
    if |args| == 1 then
      var param := args[0];
      if ':' in param then
        var parts := Split(param, ':');
        SplitCount(param, ':');
        SplitPieces(param, ':');
        JoinSplit(param, ':');
        assert |parts| == 2 ==> Join(parts, ':') == parts[0] + ":" + parts[1] by {
          if |parts| == 2 {
            assert parts[1..] == [parts[1]];
          }
        }
        if |parts| == 2 then Ok((parts[0], parts[1])) else Err(HostPortError)
      else Ok(("0.0.0.0", param))
    else if |args| == 2 then Ok((args[0], args[1]))
    else Err(MissingHostError)
  }

  /** A "host:port" argument splits back into its host and port whenever
      neither contains a ':'. */
  lemma HostPortRoundTrip(host: String, port: String)
    requires ':' !in host && ':' !in port
    ensures HostFromOpts([host + ":" + port]) == Ok((host, port))
  {
    SplitAppend(host, port, ':');
    assert Split(host, ':') == [host] && Split(port, ':') == [port];
    assert ':' in host + ":" + port by {
      assert (host + ":" + port)[|host|] == ':';
    }
  }

  /** The cases the source's tests check. */
  lemma HostFromOptsExamples()
    ensures HostFromOpts(["8080"]) == Ok(("0.0.0.0", "8080"))
    ensures HostFromOpts(["192.168.1.1", "8080"]) == Ok(("192.168.1.1", "8080"))
    ensures HostFromOpts(["192.168.1.1:8080"]) == Ok(("192.168.1.1", "8080"))
  {
    assert ':' !in "192.168.1.1" && ':' !in "8080";
    assert "192.168.1.1:8080" == "192.168.1.1" + ":" + "8080";
    HostPortRoundTrip("192.168.1.1", "8080");
  }

  /** Two or more ':' in a single argument is the host:port error. */
  lemma HostFromOptsTwoColons(a: String, b: String, c: String)
    ensures HostFromOpts([a + ":" + b + ":" + c]) == Err(HostPortError)
  {
    var s := a + ":" + b + ":" + c;
    assert s[|a|] == ':';
    SplitAppend(a + ":" + b, c, ':');
    SplitAppend(a, b, ':');
    assert |Split(s, ':')| >= 3;
  }

  // ---------------------------------------------------------------------
  // The multi-port scan
  // ---------------------------------------------------------------------

  /** The ports a list of tokens asks for: each token trimmed, the empty
      ones dropped, in order, duplicates kept. */
  function PortsOf(tokens: seq<String>): (ports: seq<String>)
    ensures |ports| <= |tokens|
    ensures forall k :: 0 <= k < |ports| ==> ports[k] != []
  {
    if tokens == [] then []
    else
      var port := Trim(tokens[|tokens| - 1]);
      PortsOf(tokens[..|tokens| - 1]) + (if port == [] then [] else [port])
  }

  /** The ports a comma-separated port list asks for. */
  function Attempted(ports: String): seq<String> {
    PortsOf(Split(ports, ','))
  }

  lemma {:induction false} PortsOfAppend(a: seq<String>, b: seq<String>)
    ensures PortsOf(a + b) == PortsOf(a) + PortsOf(b)
    decreases |b|
  {
    if b == [] {
      assert a + b == a;
    } else {
      var b', x := b[..|b| - 1], b[|b| - 1];
      assert b == b' + [x];
      assert a + b == (a + b') + [x];
      PortsOfSnoc(a + b', x);
      PortsOfSnoc(b', x);
      PortsOfAppend(a, b');
      AppendAssoc(PortsOf(a), PortsOf(b'), PortsOf([x]));
    }
  }

  lemma PortsOfSnoc(t: seq<String>, x: String)
    ensures PortsOf(t + [x]) == PortsOf(t) + PortsOf([x])
  {
    assert (t + [x])[..|t|] == t;
    assert [x][..0] == [];
  }


  lemma PortsOfPrefix(tokens: seq<String>, i: nat)
    requires i < |tokens|
    ensures Trim(tokens[i]) == [] ==> PortsOf(tokens[..i + 1]) == PortsOf(tokens[..i])
    ensures Trim(tokens[i]) != [] ==> PortsOf(tokens[..i + 1]) == PortsOf(tokens[..i]) + [Trim(tokens[i])]
  {
    assert tokens[..i + 1][..i] == tokens[..i];
    assert PortsOf(tokens[..i]) + [] == PortsOf(tokens[..i]);
  }

  /** The ports of two lists joined by a comma are the ports of the first
      followed by the ports of the second. */
  lemma AttemptedAppend(a: String, b: String)
    ensures Attempted(a + "," + b) == Attempted(a) + Attempted(b)
  {
    SplitAppend(a, b, ',');
    PortsOfAppend(Split(a, ','), Split(b, ','));
  }

  /** A list without a comma asks for its trimmed self, or for nothing when
      it is blank. */
  lemma AttemptedToken(t: String)
    requires ',' !in t
    ensures Attempted(t) == if Trim(t) == [] then [] else [Trim(t)]
  {
    assert IndexOf(t, ',') == None;
    assert Split(t, ',') == [t];
    assert [t][..0] == [];
    assert PortsOf([t]) == PortsOf([]) + (if Trim(t) == [] then [] else [Trim(t)]);
  }

  /** A token padded with white space asks for the token itself. */
  lemma AttemptedPadded(pre: String, t: String, post: String)
    requires AllWhitespace(pre) && AllWhitespace(post)
    requires t != [] && !IsWhitespace(t[0]) && !IsWhitespace(t[|t| - 1])
    requires ',' !in pre + t + post
    ensures Attempted(pre + t + post) == [t]
  {
    TrimPadded(pre, t, post);
    AttemptedToken(pre + t + post);
  }

  /** A blank token between two commas asks for nothing: "21,,22" and
      "21, ,22" ask for what "21,22" asks for. */
  lemma AttemptedSkipsBlank(a: String, blank: String, b: String)
    requires AllWhitespace(blank) && ',' !in blank
    ensures Attempted(a + "," + blank + "," + b) == Attempted(a) + Attempted(b)
  {
    var mid := blank + "," + b;
    AppendAssoc(a + ",", blank + ",", b);
    AppendAssoc(a + ",", blank, ",");
    AttemptedAppend(a, mid);
    AttemptedAppend(blank, b);
    assert Attempted(blank) == [] by {
      AttemptedToken(blank);
    }
    assert [] + Attempted(b) == Attempted(b);
  }

  /** A port token as typed: non-empty, without a comma and without white
      space at either end. */
  predicate PlainToken(t: String) {
    t != [] && ',' !in t && !IsWhitespace(t[0]) && !IsWhitespace(t[|t| - 1])
  }

  lemma AttemptedPlain(t: String)
    requires PlainToken(t)
    ensures Attempted(t) == [t]
  {
    assert "" + t + "" == t;
    AttemptedPadded("", t, "");
  }

  lemma AttemptedSpaced(t: String)
    requires PlainToken(t)
    ensures Attempted(" " + t) == [t]
  {
    assert " " + t + "" == " " + t;
    assert AllWhitespace(" ");
    assert (" " + t)[0] == ' ' && (" " + t)[1..] == t;
    AttemptedPadded(" ", t, "");
  }

  lemma AttemptedPair(p: String, q: String)
    requires PlainToken(p) && PlainToken(q)
    ensures Attempted(p + "," + (" " + q)) == [p, q]
  {
    AttemptedAppend(p, " " + q);
    AttemptedPlain(p);
    AttemptedSpaced(q);
  }

  /** The shape of "21,,22, 23": three tokens, an empty one between the
      first two and a space before the third, ask for the three tokens in
      order. */
  lemma AttemptedExample(p1: String, p2: String, p3: String)
    requires PlainToken(p1) && PlainToken(p2) && PlainToken(p3)
    ensures Attempted(p1 + ",," + p2 + ", " + p3) == [p1, p2, p3]
  {
    var tail := p2 + "," + (" " + p3);
    assert p1 + ",," + p2 + ", " + p3 == p1 + "," + "" + "," + tail;
    AttemptedSkipsBlank(p1, "", tail);
    AttemptedPlain(p1);
    AttemptedPair(p2, p3);
  }

  /** The options of one attempt: the base options with the scan's host
      and the attempted port. */
  function AttemptOpts(opts: BannerOpts, host: String, port: String): (o: BannerOpts)
    ensures o.timeout == opts.timeout && o.protocol == opts.protocol && o.verbose == opts.verbose
    ensures host == opts.host ==> o == opts.(port := port)
  {
    BannerOpts(host, port, opts.timeout, opts.protocol, opts.verbose)
  }

  /** The separator under each section header: fifty '='. */
  function Separator(): (s: String)
    ensures |s| == 50 && forall i :: 0 <= i < 50 ==> s[i] == '='
  {
    seq(50, _ => '=')
  }

  /** The header line of one port's section, preceded by a blank line. */
  function Header(host: String, port: String): String {
    "\n=== Banner for " + host + ":" + port + "\n"
  }

  /** The line the `match` on a grab's outcome appends: a fixed line on
      success, the error's text otherwise. */
  function OutcomeLine(outcome: Result<BannerInfo, IoError>): String {
    match outcome
    case Ok(_) => "Banner grabbed successfully\n"
    case Err(e) => "Error: " + e.message + "\n"
  }

  /** One port's section of the report: the header naming host and port,
      the separator line, the outcome line and a blank line. */
  function Section(host: String, port: String, outcome: Result<BannerInfo, IoError>): String {
    Header(host, port) + (Separator() + "\n") + OutcomeLine(outcome) + "\n"
  }

  /** Appending a section piece by piece, as the loop does, appends the section. */
  lemma SectionAppend(before: String, host: String, port: String, outcome: Result<BannerInfo, IoError>)
    ensures before + Header(host, port) + (Separator() + "\n") + OutcomeLine(outcome) + "\n"
            == before + Section(host, port, outcome)
  {
    var a, b, c := Header(host, port), Separator() + "\n", OutcomeLine(outcome);
    AppendAssoc(before, a, b);
    AppendAssoc(before, a + b, c);
    AppendAssoc(before, a + b + c, "\n");
  }

  /** The report for a sequence of attempted ports. */
  function Report(host: String, ports: seq<String>, opts: BannerOpts, grab: BannerOpts -> Result<BannerInfo, IoError>): String {
    if ports == [] then []
    else
      var port := ports[|ports| - 1];
      Report(host, ports[..|ports| - 1], opts, grab) + Section(host, port, grab(AttemptOpts(opts, host, port)))
  }

  /** The sections of a report, one per attempted port, in order; each
      depends only on its own port's outcome. */
  function Sections(host: String, ports: seq<String>, opts: BannerOpts, grab: BannerOpts -> Result<BannerInfo, IoError>): (ss: seq<String>)
    ensures |ss| == |ports|
  {
    seq(|ports|, i requires 0 <= i < |ports| => Section(host, ports[i], grab(AttemptOpts(opts, host, ports[i]))))
  }

  lemma {:induction false} ConcatSnoc(ss: seq<String>, s: String)
    ensures Concat(ss + [s]) == Concat(ss) + s
  {
    if ss == [] {
      assert [s][1..] == [];
    } else {
      assert (ss + [s])[1..] == ss[1..] + [s];
      ConcatSnoc(ss[1..], s);
    }
  }

  /** A non-blank token appends its own section to the report. */
  lemma ReportStep(host: String, tokens: seq<String>, i: nat, opts: BannerOpts, grab: BannerOpts -> Result<BannerInfo, IoError>)
    requires i < |tokens| && Trim(tokens[i]) != []
    ensures Report(host, PortsOf(tokens[..i + 1]), opts, grab)
         == Report(host, PortsOf(tokens[..i]), opts, grab)
            + Section(host, Trim(tokens[i]), grab(AttemptOpts(opts, host, Trim(tokens[i]))))
  {
    PortsOfPrefix(tokens, i);
    ReportSnoc(host, PortsOf(tokens[..i]), Trim(tokens[i]), opts, grab);
  }

  lemma ReportSnoc(host: String, ports: seq<String>, port: String, opts: BannerOpts, grab: BannerOpts -> Result<BannerInfo, IoError>)
    ensures Report(host, ports + [port], opts, grab)
         == Report(host, ports, opts, grab) + Section(host, port, grab(AttemptOpts(opts, host, port)))
  {
    assert (ports + [port])[..|ports|] == ports;
  }

  lemma SectionsSnoc(host: String, ports: seq<String>, port: String, opts: BannerOpts, grab: BannerOpts -> Result<BannerInfo, IoError>)
    ensures Sections(host, ports + [port], opts, grab)
         == Sections(host, ports, opts, grab) + [Section(host, port, grab(AttemptOpts(opts, host, port)))]
  {
    var ss := Sections(host, ports + [port], opts, grab);
    var ss' := Sections(host, ports, opts, grab) + [Section(host, port, grab(AttemptOpts(opts, host, port)))];
    forall k | 0 <= k < |ss|
      ensures ss[k] == ss'[k]
    {
      if k < |ports| {
        assert (ports + [port])[k] == ports[k];
      }
    }
  }

  /** The report is the concatenation of exactly one section per attempted
      port, in the order of the ports: a failed grab only changes its own
      section and never stops the ones after it. */
  lemma {:induction false} ReportIsSections(host: String, ports: seq<String>, opts: BannerOpts, grab: BannerOpts -> Result<BannerInfo, IoError>)
    ensures Report(host, ports, opts, grab) == Concat(Sections(host, ports, opts, grab))
    decreases |ports|
  {
    if ports != [] {
      var init, port := ports[..|ports| - 1], ports[|ports| - 1];
      assert ports == init + [port];
      ReportIsSections(host, init, opts, grab);
      ReportSnoc(host, init, port, opts, grab);
      SectionsSnoc(host, init, port, opts, grab);
      ConcatSnoc(Sections(host, init, opts, grab), Section(host, port, grab(AttemptOpts(opts, host, port))));
    }
  }

  /** `grab_multiple_banners`: for each non-empty trimmed token of the
      comma-separated list, in order, append a section built from the grab
      of the base options with that port; the result is always `Ok`. */
  method GrabMultipleBanners(host: String, ports: String, opts: BannerOpts, grab: BannerOpts -> Result<BannerInfo, IoError>)
    returns (r: Result<String, String>)
    ensures r == Ok(Report(host, Attempted(ports), opts, grab))
  {
    var tokens := Split(ports, ',');
    var results := GrabEach(host, tokens, opts, grab);
    r := Ok(results);
  }

  /** The loop of `grab_multiple_banners` over the tokens of the list: a
      blank token is skipped, and every other token appends its header, the
      separator, its outcome line and a blank line. */
  method GrabEach(host: String, tokens: seq<String>, opts: BannerOpts, grab: BannerOpts -> Result<BannerInfo, IoError>)
    returns (results: String)
    ensures results == Report(host, PortsOf(tokens), opts, grab)
  {
    results := "";
    for i := 0 to |tokens|
      invariant results == Report(host, PortsOf(tokens[..i]), opts, grab)
    {
      var port := Trim(tokens[i]);
      PortsOfPrefix(tokens, i);
      if port == [] {
        continue;
      }
      ghost var before := results;
      results := results + Header(host, port);
      results := results + (Separator() + "\n");
      var bannerOpts := BannerOpts(host, port, opts.timeout, opts.protocol, opts.verbose);
      var outcome := grab(bannerOpts);
      results := results + OutcomeLine(outcome);
      results := results + "\n";
      SectionAppend(before, host, port, outcome);
      assert bannerOpts == AttemptOpts(opts, host, port);
      ReportStep(host, tokens, i, opts, grab);
    }
    assert tokens[..|tokens|] == tokens;
  }

}

=== FILE: protocol.dfy ===
/** The `Protocol` enum of the banner grabber: parsing a user's hint, the
    two port tables, resolution of `Auto` and the label each grab strategy
    reports its banner under. */
module Protocols {
  import opened Text
  import opened Wrappers

  datatype Protocol = Auto | Http | Https | Ftp | Ssh | Smtp | Telnet | Raw

  /** The lower-case name a user types for each protocol. */
  function Name(p: Protocol): String {
    match p
    case Auto => "auto"
    case Http => "http"
    case Https => "https"
    case Ftp => "ftp"
    case Ssh => "ssh"
    case Smtp => "smtp"
    case Telnet => "telnet"
    case Raw => "raw"
  }

  /** `Protocol::from_str`: the hint, lower-cased, is matched against the
      seven concrete names; anything else is `Auto`. The match is total and
      a concrete protocol is chosen exactly when the lower-cased hint is its
      name. */
  function FromStr(s: String): (p: Protocol)
    ensures p != Auto ==> AsciiLower(s) == Name(p)
    ensures p == Auto <==> AsciiLower(s) !in {"http", "https", "ftp", "ssh", "smtp", "telnet", "raw"}
  {
    var lower := AsciiLower(s);
    if lower == "http" then Http
    else if lower == "https" then Https
    else if lower == "ftp" then Ftp
    else if lower == "ssh" then Ssh
    else if lower == "smtp" then Smtp
    else if lower == "telnet" then Telnet
    else if lower == "raw" then Raw
    else Auto
  }

  /** Lower-casing is idempotent on ASCII. */
  lemma {:induction false} AsciiLowerIdempotent(s: String)
    ensures AsciiLower(AsciiLower(s)) == AsciiLower(s)
  {
    var l := AsciiLower(s);
    assert forall i | 0 <= i < |s| :: LowerChar(LowerChar(s[i])) == LowerChar(s[i]);
    assert AsciiLower(l) == l;
  }

  /** Parsing is case-insensitive: a hint and its lower-cased form name the
      same protocol, and every protocol's name parses back to it (`"auto"`
      through the fall-back). */
  lemma FromStrCaseInsensitive(s: String)
    ensures FromStr(s) == FromStr(AsciiLower(s))
  {
    AsciiLowerIdempotent(s);
  }

  lemma FromStrName(p: Protocol)
    ensures FromStr(Name(p)) == p
  {
    AsciiLowerUnchanged(Name(p));
    match p
    case Auto =>
    case Http =>
    case Https =>
    case Ftp =>
    case Ssh =>
    case Smtp =>
    case Telnet =>
    case Raw =>
  }

  /** Upper- and mixed-case spellings are accepted. */
  lemma FromStrUpperCase()
    ensures FromStr("HTTP") == Http && FromStr("Ssh") == Ssh
  {
    assert AsciiLower("HTTP") == "http" by {
      var l := AsciiLower("HTTP");
      assert l[0] == 'h' && l[1] == 't' && l[2] == 't' && l[3] == 'p';
    }
    assert AsciiLower("Ssh") == "ssh" by {
      var l := AsciiLower("Ssh");
      assert l[0] == 's' && l[1] == 's' && l[2] == 'h';
    }
  }

  /** An unknown word, the empty hint and "auto" itself all give `Auto`. */
  lemma FromStrUnknown()
    ensures FromStr("gopher") == Auto && FromStr("") == Auto && FromStr("AUTO") == Auto
  {
    FromStrGopher();
    FromStrAutoUpper();
  }

  lemma FromStrGopher()
    ensures FromStr("gopher") == Auto
  {
    AsciiLowerUnchanged("gopher");
  }

  lemma FromStrAutoUpper()
    ensures AsciiLower("AUTO") == "auto"
  {
    var l := AsciiLower("AUTO");
    assert l[0] == 'a' && l[1] == 'u' && l[2] == 't' && l[3] == 'o';
  }


  /** `Protocol::get_default_port`; `Raw` and `Auto` fall back to 80. */
  function DefaultPort(p: Protocol): (r: U16)
    ensures WellKnown(r)
  {
    match p
    case Http => 80
    case Https => 443
    case Ftp => 21
    case Ssh => 22
    case Smtp => 25
    case Telnet => 23
    case _ => 80
  }

  /** The six ports the detection table knows. */
  predicate WellKnown(port: U16) {
    port == 21 || port == 22 || port == 23 || port == 25 || port == 80 || port == 443
  }

  /** `Protocol::detect_from_port`: never `Auto`; `Raw` exactly for the
      ports outside the table; and a detected protocol's default port is the
      port it was detected from. */
  function DetectFromPort(port: U16): (p: Protocol)
    ensures p != Auto
    ensures p == Raw <==> !WellKnown(port)
    ensures p != Raw ==> DefaultPort(p) == port
  {
    match port
    case 21 => Ftp
    case 22 => Ssh
    case 23 => Telnet
    case 25 => Smtp
    case 80 => Http
    case 443 => Https
    case _ => Raw
  }

  /** Round trip through the two tables: every concrete protocol except
      `Raw` is detected from its own default port; `Raw` and `Auto` default
      to 80 and so come back as `Http`. */
  lemma DefaultPortRoundTrip(p: Protocol)
    ensures p != Raw && p != Auto ==> DetectFromPort(DefaultPort(p)) == p
    ensures p == Raw || p == Auto ==> DetectFromPort(DefaultPort(p)) == Http
  {
  }

  /** The table of well-known ports: 21 FTP, 22 SSH, 23 Telnet, 25 SMTP,
      80 HTTP and 443 HTTPS. With `DetectFromPort`'s ensures this also fixes
      every default port. */
  lemma PortTable()
    ensures DetectFromPort(21) == Ftp && DetectFromPort(22) == Ssh && DetectFromPort(23) == Telnet
    ensures DetectFromPort(25) == Smtp && DetectFromPort(80) == Http && DetectFromPort(443) == Https
    ensures DefaultPort(Ftp) == 21 && DefaultPort(Ssh) == 22 && DefaultPort(Telnet) == 23
    ensures DefaultPort(Smtp) == 25 && DefaultPort(Http) == 80 && DefaultPort(Https) == 443
  {
  }


  /** The `Auto` rule of `grab_banner`: an explicit protocol is kept; `Auto`
      is replaced by the protocol detected from the port, and a port that
      does not parse as a `u16` counts as 80. The result is never `Auto`. */
  function Resolve(hint: Protocol, port: String): (p: Protocol)
    ensures p != Auto
    ensures hint != Auto ==> p == hint
    ensures hint == Auto && ParseU16(port).None? ==> p == Http
  {
    match hint
    case Auto => DetectFromPort(ParseU16(port).GetOr(80))
    case _ => hint
  }

  /** For `Auto`, a decimal port resolves through the detection table. */
  lemma ResolveDecimal(n: U16)
    ensures Resolve(Auto, Decimal(n)) == DetectFromPort(n)
  {
    ParseDecimal(n);
  }

  /** A port that is not a `u16` resolves as "80" does. */
  lemma ResolveUnparsable(port: String)
    requires ParseU16(port).None?
    ensures Resolve(Auto, port) == Resolve(Auto, "80") == Http
  {
    assert DecimalValue("80") == 80 by {
      assert "80"[..1] == "8";
      assert "8"[..0] == "";
    }
  }

  lemma ResolveExamples()
    ensures Resolve(Auto, "abc") == Http
    ensures Resolve(Auto, "70000") == Http
    ensures Resolve(Auto, "") == Http && Resolve(Auto, "-22") == Http
    ensures Resolve(Ssh, "80") == Ssh
  {
    assert !IsDigit('a') && "abc"[0] == 'a';
    assert !IsDigit('-') && "-22"[0] == '-';
    assert DecimalValue("70000") == 70000 by {
      assert "70000"[..4] == "7000" && "7000"[..3] == "700" && "700"[..2] == "70";
      assert "70"[..1] == "7" && "7"[..0] == "";
    }
  }

  /** The label the grab strategy chosen for a resolved protocol reports
      its banner under; the HTTPS strategy is the HTTP one and says "HTTP". */
  function Label(p: Protocol): String {
    match p
    case Http | Https => "HTTP"
    case Ftp => "FTP"
    case Ssh => "SSH"
    case Smtp => "SMTP"
    case Telnet => "Telnet"
    case Raw | Auto => "Raw"
  }

  /** Only HTTP and HTTPS are labelled "HTTP"; every other label names one
      protocol, with `Auto` sharing the `Raw` strategy. */
  lemma LabelHttp(p: Protocol)
    ensures Label(p) == "HTTP" <==> p == Http || p == Https
    ensures Label(p) == "SSH" <==> p == Ssh
    ensures Label(p) == "FTP" <==> p == Ftp
  {
  }
}

=== FILE: stream.dfy ===
/** The connected TCP stream the grab strategies work on, seen through
    `TcpStream` and `BufReader`: what the peer sends, how much of it one
    `read` call gets, whether writing fails and how the stream ends once
    everything has been read. Resolving the address and connecting are not
    modelled here: a grab receives either a `Peer` or the error that
    connecting produced. */
module Streams {
  import opened Text
  import opened Wrappers

  /** An I/O error, by its display text. */
  datatype IoError = IoError(message: String)

  /** What the peer does once it has sent all of its data: close the
      connection (a read then returns 0 bytes), or stay silent until the
      read timeout fires. */
  datatype Ending = Closed | Stalls(timeout: IoError)

  type Pos = n: nat | n > 0 witness 1

  /** A connected peer: the text it sends, how many bytes of it have
      arrived when the first `read` is issued, whether a write to it fails,
      and how its stream ends. */
  datatype Peer = Peer(data: String, burst: Pos, writeFailure: Option<IoError>, ending: Ending)

  function Min(a: nat, b: nat): nat {
    if a <= b then a else b
  }

  /** `BufRead::read_line`: the text up to and including the next '\n'. With
      no '\n' left, a closed stream gives whatever remains (nothing at its
      end), and a stalled one times out. */
  function LineOf(pending: String, ending: Ending): (r: Result<String, IoError>)
    ensures r.Ok? ==> StartsWith(pending, r.value)
    ensures r.Ok? && r.value == [] ==> pending == []
    ensures r.Ok? && r.value != [] && r.value != pending ==> r.value[|r.value| - 1] == '\n'
    ensures r.Ok? && r.value != [] ==> '\n' !in r.value[..|r.value| - 1]
    ensures r.Err? <==> '\n' !in pending && ending.Stalls?
    ensures r.Err? ==> r.error == ending.timeout
  {
    match IndexOf(pending, '\n')
    case Some(i) => Ok(pending[..i + 1])
    case None =>
      match ending
      case Closed => Ok(pending)
      case Stalls(e) => Err(e)
  }

  /** `Read::read` on the socket into a buffer of `capacity` bytes: what has
      arrived, up to the capacity. Zero bytes are read only at the end of a
      closed stream (or into an empty buffer); a stalled stream with nothing
      left times out. */
  function ReadCount(pending: String, burst: Pos, ending: Ending, capacity: nat): (r: Result<nat, IoError>)
    ensures r.Ok? ==> r.value <= capacity && r.value <= |pending|
    ensures r.Ok? && r.value == 0 ==> pending == [] || capacity == 0
    ensures r.Err? <==> pending == [] && ending.Stalls?
  {
    if pending == [] then
      match ending
      case Closed => Ok(0)
      case Stalls(e) => Err(e)
    else Ok(Min(capacity, Min(burst, |pending|)))
  }

  class Connection {
    /** What the peer has sent and the grab has not read yet. */
    var pending: String
    /** Everything written to the peer so far. */
    var sent: String
    const burst: Pos
    const writeFailure: Option<IoError>
    const ending: Ending

    constructor (peer: Peer)
      ensures pending == peer.data && sent == []
      ensures burst == peer.burst && writeFailure == peer.writeFailure && ending == peer.ending
    {
      pending := peer.data;
      sent := [];
      burst := peer.burst;
      writeFailure := peer.writeFailure;
      ending := peer.ending;
    }

    /** `Write::write_all`. */
    method WriteAll(bytes: String) returns (r: Result<(), IoError>)
      modifies this
      ensures r == if writeFailure.Some? then Err(writeFailure.value) else Ok(())
      ensures sent == if r.Ok? then old(sent) + bytes else old(sent)
      ensures pending == old(pending)
    {
      if writeFailure.Some? {
        return Err(writeFailure.value);
      }
      sent := sent + bytes;
      r := Ok(());
    }

    /** `BufRead::read_line` on a reader over this stream. */
    method ReadLine() returns (r: Result<String, IoError>)
      modifies this
      ensures r == LineOf(old(pending), ending)
      ensures pending == if r.Ok? then old(pending)[|r.value|..] else old(pending)
      ensures sent == old(sent)
    {
      r := LineOf(pending, ending);
      if r.Ok? {
        pending := pending[|r.value|..];
      }
    }

    /** `Read::read`: one call, filling the front of `buf` in place and
      leaving the rest of it as it was. */
    method Read(buf: array<char>) returns (r: Result<nat, IoError>)
      modifies this, buf
      ensures r == ReadCount(old(pending), burst, ending, buf.Length)
      ensures r.Ok? ==> buf[..r.value] == old(pending)[..r.value] && buf[r.value..] == old(buf[r.value..])
      ensures pending == if r.Ok? then old(pending)[r.value..] else old(pending)
      ensures sent == old(sent)
    {
      r := ReadCount(pending, burst, ending, buf.Length);
      if r.Ok? {
        var n := r.value;
        forall i | 0 <= i < n {
          buf[i] := pending[i];
        }
        pending := pending[n..];
      }
    }
  }
}

=== FILE: text.dfy ===
/** The parts of Rust's `str` and `char` API that the banner core relies on:
    whitespace trimming, ASCII lower-casing, prefix tests, `split`, `lines`
    and `parse::<u16>()`. Text is a sequence of characters; the lossy UTF-8
    decoding that produced it is not modelled. */
module Text {
  import opened Wrappers

  type String = seq<char>

  /** An unsigned 16-bit integer (Rust's `u16`). */
  type U16 = n: int | 0 <= n <= 0xFFFF

  // ---------------------------------------------------------------------
  // Whitespace and trimming
  // ---------------------------------------------------------------------

  /** `char::is_whitespace`: the characters with the Unicode White_Space property. */
  predicate IsWhitespace(c: char) {
    ('\U{9}' <= c <= '\U{D}') || c == ' ' || c == '\U{85}' || c == '\U{A0}' || c == '\U{1680}'
    || ('\U{2000}' <= c <= '\U{200A}') || c == '\U{2028}' || c == '\U{2029}'
    || c == '\U{202F}' || c == '\U{205F}' || c == '\U{3000}'
  }

  predicate AllWhitespace(s: String) {
    forall i :: 0 <= i < |s| ==> IsWhitespace(s[i])
  }

  /** `str::trim_start`: the suffix left after the longest all-whitespace prefix. */
  function TrimStart(s: String): (r: String)
    ensures |r| <= |s| && r == s[|s| - |r|..]
    ensures AllWhitespace(s[..|s| - |r|])
    ensures r != [] ==> !IsWhitespace(r[0])
  {
    if s != [] && IsWhitespace(s[0]) then
      var r := TrimStart(s[1..]);
      assert AllWhitespace(s[..|s| - |r|]) by {
        var k := |s| - |r|;
        forall i | 0 <= i < k
          ensures IsWhitespace(s[..k][i])
        {
          if i > 0 {
            assert s[..k][i] == s[1..][..k - 1][i - 1];
          }
        }
      }
      r
    else s
  }

  /** `str::trim_end`: the prefix left after the longest all-whitespace suffix. */
  function TrimEnd(s: String): (r: String)
    ensures |r| <= |s| && r == s[..|r|]
    ensures AllWhitespace(s[|r|..])
    ensures r != [] ==> !IsWhitespace(r[|r| - 1])
  {
    if s != [] && IsWhitespace(s[|s| - 1]) then
      var r := TrimEnd(s[..|s| - 1]);
      assert AllWhitespace(s[|r|..]) by {
        forall i | 0 <= i < |s| - |r|
          ensures IsWhitespace(s[|r|..][i])
        {
          if i < |s| - 1 - |r| {
            assert s[|r|..][i] == s[..|s| - 1][|r|..][i];
          }
        }
      }
      r
    else s
  }

  /** `str::trim`: a text is blank exactly when it is all whitespace, and
      otherwise its trim starts and ends with a non-whitespace character. */
  function Trim(s: String): (r: String)
    ensures |r| <= |s|
    ensures r == [] <==> AllWhitespace(s)
    ensures r != [] ==> !IsWhitespace(r[0]) && !IsWhitespace(r[|r| - 1])
  {
    var t := TrimStart(s);
    assert s == s[..|s| - |t|] + t;
    TrimEnd(t)
  }

  /** The trim is one contiguous slice of the text, and what lies on either
      side of it is all whitespace. */
  lemma TrimSlice(s: String)
    ensures exists i :: 0 <= i <= |s| - |Trim(s)| && Trim(s) == s[i..i + |Trim(s)|]
              && AllWhitespace(s[..i]) && AllWhitespace(s[i + |Trim(s)|..])
  {
    PaddedSlice(s, TrimStart(s), Trim(s));
  }

  lemma PaddedSlice(s: String, t: String, r: String)
    requires |t| <= |s| && t == s[|s| - |t|..] && AllWhitespace(s[..|s| - |t|])
    requires |r| <= |t| && r == t[..|r|] && AllWhitespace(t[|r|..])
    ensures exists i :: 0 <= i <= |s| - |r| && r == s[i..i + |r|]
              && AllWhitespace(s[..i]) && AllWhitespace(s[i + |r|..])
  {
    var i := |s| - |t|;
    assert s[i + |r|..] == t[|r|..];
  }

  /** Trimming removes exactly the whitespace padding around a text that
      neither starts nor ends with whitespace. */
  lemma {:induction false} TrimPadded(pre: String, s: String, post: String)
    requires AllWhitespace(pre) && AllWhitespace(post)
    requires s != [] ==> !IsWhitespace(s[0]) && !IsWhitespace(s[|s| - 1])
    ensures Trim(pre + s + post) == s
  {
    var x := pre + s + post;
    if s == [] {
      assert AllWhitespace(x) by {
        assert x == pre + post;
      }
    } else {
      assert TrimStart(x) == s + post by {
        assert x == pre + (s + post);
        TrimStartSkips(pre, s + post);
      }
      TrimEndSkips(s, post);
    }
  }

  lemma {:induction false} TrimStartSkips(pre: String, s: String)
    requires AllWhitespace(pre) && s != [] && !IsWhitespace(s[0])
    ensures TrimStart(pre + s) == s
  {
    if pre != [] {
      assert (pre + s)[1..] == pre[1..] + s;
      TrimStartSkips(pre[1..], s);
    }
  }

  lemma {:induction false} TrimEndSkips(s: String, post: String)
    requires AllWhitespace(post) && s != [] && !IsWhitespace(s[|s| - 1])
    ensures TrimEnd(s + post) == s
  {
    if post != [] {
      assert (s + post)[..|s + post| - 1] == s + post[..|post| - 1];
      TrimEndSkips(s, post[..|post| - 1]);
    } else {
      assert s + post == s;
    }
  }

  // ---------------------------------------------------------------------
  // Lower-casing and prefixes
  // ---------------------------------------------------------------------

  function LowerChar(c: char): char {
    if 'A' <= c <= 'Z' then (c as int + 32) as char else c
  }

  /** `str::to_lowercase`, restricted to ASCII letters. */
  function AsciiLower(s: String): (r: String)
    ensures |r| == |s|
    ensures forall i :: 0 <= i < |s| ==> r[i] == LowerChar(s[i])
  {
    if s == [] then [] else [LowerChar(s[0])] + AsciiLower(s[1..])
  }

  /** Text without upper-case ASCII letters is its own lower-case form. */
  lemma AsciiLowerUnchanged(s: String)
    requires forall i :: 0 <= i < |s| ==> !('A' <= s[i] <= 'Z')
    ensures AsciiLower(s) == s
  {
    var l := AsciiLower(s);
    assert forall i | 0 <= i < |s| :: l[i] == s[i];
  }

  /** Lower-casing works character by character, so it distributes over
      concatenation. */
  lemma AsciiLowerAppend(a: String, b: String)
    ensures AsciiLower(a + b) == AsciiLower(a) + AsciiLower(b)
  {
    var l, r := AsciiLower(a + b), AsciiLower(a) + AsciiLower(b);
    assert |l| == |r|;
    forall i | 0 <= i < |l|
      ensures l[i] == r[i]
    {
      if i < |a| {
        assert (a + b)[i] == a[i];
      } else {
        assert (a + b)[i] == b[i - |a|];
      }
    }
  }

  predicate StartsWith(s: String, prefix: String) {
    |prefix| <= |s| && s[..|prefix|] == prefix
  }

  /** A prefix of what follows a prefix extends it. */
  lemma StartsWithConcat(s: String, a: String, b: String)
    requires StartsWith(s, a) && StartsWith(s[|a|..], b)
    ensures StartsWith(s, a + b)
  {
    assert s[..|a + b|] == s[..|a|] + s[|a|..][..|b|];
  }

  // ---------------------------------------------------------------------
  // Searching and splitting
  // ---------------------------------------------------------------------

  /** The index of the first occurrence of `c` in `s`, if any. */
  function IndexOf(s: String, c: char): (r: Option<nat>)
    ensures r.None? <==> c !in s
    ensures r.Some? ==> r.value < |s| && s[r.value] == c && c !in s[..r.value]
  {
    if s == [] then None
    else if s[0] == c then Some(0)
    else
      match IndexOf(s[1..], c)
      case None => None
      case Some(i) =>
        assert s[..i + 1] == [s[0]] + s[1..][..i];
        Some(i + 1)
  }

  /** `str::split` on one character: the pieces between separators, empty
      pieces included, so there is always at least one. */
  function Split(s: String, sep: char): (parts: seq<String>)
    ensures |parts| >= 1
    decreases |s|
  {
    match IndexOf(s, sep)
    case None => [s]
    case Some(i) => [s[..i]] + Split(s[i + 1..], sep)
  }

  /** No piece of a split contains the separator. */
  lemma {:induction false} SplitPieces(s: String, sep: char)
    ensures forall k :: 0 <= k < |Split(s, sep)| ==> sep !in Split(s, sep)[k]
    decreases |s|
  {
    match IndexOf(s, sep)
    case None =>
    case Some(i) =>
      SplitPieces(s[i + 1..], sep);
  }

  /** The inverse of `Split`: the pieces glued back with the separator. */
  function Join(parts: seq<String>, sep: char): String {
    if parts == [] then []
    else if |parts| == 1 then parts[0]
    else parts[0] + [sep] + Join(parts[1..], sep)
  }

  /** The number of occurrences of `c` in `s`. */
  function Count(s: String, c: char): nat {
    if s == [] then 0 else (if s[0] == c then 1 else 0) + Count(s[1..], c)
  }

  lemma {:induction false} CountAbsent(s: String, c: char)
    requires c !in s
    ensures Count(s, c) == 0
  {
    if s != [] {
      CountAbsent(s[1..], c);
    }
  }

  lemma {:induction false} CountAppend(a: String, b: String, c: char)
    ensures Count(a + b, c) == Count(a, c) + Count(b, c)
  {
    if a == [] {
      assert a + b == b;
    } else {
      assert (a + b)[1..] == a[1..] + b;
      CountAppend(a[1..], b, c);
    }
  }

  /** One step of `Split`: the piece before the first separator, then the
      split of the rest. */
  lemma SplitStep(s: String, sep: char, i: nat)
    requires IndexOf(s, sep) == Some(i)
    ensures Split(s, sep) == [s[..i]] + Split(s[i + 1..], sep)
  {
  }

  lemma JoinCons(head: String, rest: seq<String>, sep: char)
    requires rest != []
    ensures Join([head] + rest, sep) == head + [sep] + Join(rest, sep)
  {
    assert ([head] + rest)[1..] == rest;
  }

  /** Splitting never loses or invents text. */
  lemma {:induction false} JoinSplit(s: String, sep: char)
    ensures Join(Split(s, sep), sep) == s
    decreases |s|
  {
    match IndexOf(s, sep)
    case None =>
    case Some(i) =>
      var head, tail := s[..i], s[i + 1..];
      SplitStep(s, sep, i);
      JoinSplit(tail, sep);
      JoinCons(head, Split(tail, sep), sep);
      assert s == head + [sep] + tail;
  }

  /** Splitting yields one more piece than there are separators. */
  lemma {:induction false} SplitCount(s: String, sep: char)
    ensures |Split(s, sep)| == Count(s, sep) + 1
    decreases |s|
  {
    match IndexOf(s, sep)
    case None =>
      CountAbsent(s, sep);
    case Some(i) =>
      SplitCount(s[i + 1..], sep);
      assert s == s[..i] + ([sep] + s[i + 1..]);
      CountAppend(s[..i], [sep] + s[i + 1..], sep);
      CountAppend([sep], s[i + 1..], sep);
      CountAbsent(s[..i], sep);
  }

  /** `IndexOf` finds the first occurrence, so any occurrence with no
      earlier one is the one it finds. */
  lemma IndexOfAt(s: String, c: char, j: nat)
    requires j < |s| && s[j] == c && c !in s[..j]
    ensures IndexOf(s, c) == Some(j)
  {
  }

  /** Splitting distributes over a separator placed between two texts. */
  lemma {:induction false} SplitAppend(a: String, b: String, sep: char)
    ensures Split(a + [sep] + b, sep) == Split(a, sep) + Split(b, sep)
    decreases |a|
  {
    match IndexOf(a, sep)
    case None => SplitAfterFirst(a, b, sep);
    case Some(i) =>
      SplitAppend(a[i + 1..], b, sep);
      SplitAppendStep(a, b, sep, i);
  }

  lemma SplitAppendStep(a: String, b: String, sep: char, i: nat)
    requires IndexOf(a, sep) == Some(i)
    requires Split(a[i + 1..] + [sep] + b, sep) == Split(a[i + 1..], sep) + Split(b, sep)
    ensures Split(a + [sep] + b, sep) == Split(a, sep) + Split(b, sep)
  {
    SplitAtFirst(a, b, sep, i);
    SplitStep(a, sep, i);
    AppendAssoc([a[..i]], Split(a[i + 1..], sep), Split(b, sep));
  }

  lemma AppendAssoc<T>(x: seq<T>, y: seq<T>, z: seq<T>)
    ensures x + (y + z) == x + y + z
  {
  }

  lemma Regroup4<T>(a: seq<T>, b: seq<T>, c: seq<T>, d: seq<T>)
    ensures a + b + c + d == (a + b) + (c + d)
  {
  }

  lemma Regroup6<T>(a: seq<T>, b: seq<T>, c: seq<T>, d: seq<T>, e: seq<T>, f: seq<T>)
    ensures a + b + c + d + e + f == (a + b) + ((c + d) + (e + f))
  {
    Regroup4(a + b, c + d, e, f);
    Regroup4(a, b, c, d);
    AppendAssoc(c + d, e, f);
  }

  lemma SplitAfterFirst(a: String, b: String, sep: char)
    requires sep !in a
    ensures Split(a + [sep] + b, sep) == [a] + Split(b, sep)
  {
    var s := a + [sep] + b;
    assert s[..|a|] == a;
    IndexOfAt(s, sep, |a|);
    assert s[|a| + 1..] == b;
  }

  lemma SplitAtFirst(a: String, b: String, sep: char, i: nat)
    requires i < |a| && a[i] == sep && sep !in a[..i]
    ensures Split(a + [sep] + b, sep) == [a[..i]] + Split(a[i + 1..] + [sep] + b, sep)
  {
    var s := a + [sep] + b;
    assert s[..i] == a[..i];
    IndexOfAt(s, sep, i);
    assert s[i + 1..] == a[i + 1..] + [sep] + b;
  }

  // ---------------------------------------------------------------------
  // Lines
  // ---------------------------------------------------------------------

  /** Drops one trailing carriage return, if there is one. */
  function StripCr(s: String): String {
    if s != [] && s[|s| - 1] == '\r' then s[..|s| - 1] else s
  }

  /** `str::lines`: every '\n' ends a line; a line loses that '\n' and then
      one '\r' before it; a last piece without '\n' is kept as it is; no
      empty line follows a final '\n'. */
  function Lines(s: String): (r: seq<String>)
    ensures s == [] <==> r == []
    ensures forall k :: 0 <= k < |r| ==> '\n' !in r[k]
    decreases |s|
  {
    if s == [] then []
    else
      match IndexOf(s, '\n')
      case None => [s]
      case Some(i) => [StripCr(s[..i])] + Lines(s[i + 1..])
  }

  /** The lines of a text are the lines of its first line-terminated piece
      followed by the lines of the rest. */
  lemma LinesCons(line: String, rest: String)
    requires '\n' !in line
    ensures Lines(line + "\n" + rest) == [StripCr(line)] + Lines(rest)
  {
    var s := line + "\n" + rest;
    assert s[..|line|] == line;
    IndexOfAt(s, '\n', |line|);
    assert s[|line| + 1..] == rest;
  }

  /** A CRLF-terminated first line loses its CRLF. */
  lemma LinesCrlf(line: String, rest: String)
    requires '\n' !in line
    ensures Lines(line + "\r\n" + rest) == [line] + Lines(rest)
  {
    assert line + "\r\n" + rest == (line + "\r") + "\n" + rest;
    assert '\n' !in line + "\r" by {
      assert forall i | 0 <= i < |line| :: (line + "\r")[i] == line[i];
    }
    LinesCons(line + "\r", rest);
    assert StripCr(line + "\r") == line;
  }

  // ---------------------------------------------------------------------
  // Decimal numbers
  // ---------------------------------------------------------------------

  predicate IsDigit(c: char) {
    '0' <= c <= '9'
  }

  predicate AllDigits(s: String) {
    forall i :: 0 <= i < |s| ==> IsDigit(s[i])
  }

  /** The value of a string of decimal digits, most significant first. */
  function DecimalValue(s: String): nat
    requires AllDigits(s)
  {
    if s == [] then 0 else DecimalValue(s[..|s| - 1]) * 10 + (s[|s| - 1] as int - '0' as int)
  }

  /** `str::parse::<u16>()`: an optional '+', then at least one ASCII digit,
      with a value that fits in 16 bits. A '-', a space or any other
      character, an empty text and an overflow are all errors. */
  function ParseU16(s: String): (r: Option<U16>)
    ensures s == [] || s == ['+'] ==> r.None?
    ensures s != [] && s[0] == '-' ==> r.None?
  {
    var digits := if s != [] && s[0] == '+' then s[1..] else s;
    if digits == [] || !AllDigits(digits) then None
    else
      var v := DecimalValue(digits);
      if v <= 0xFFFF then Some(v) else None
  }

  /** The canonical decimal rendering of a natural number. */
  function Decimal(n: nat): (r: String)
    ensures r != [] && AllDigits(r)
  {
    if n < 10 then [('0' as int + n) as char]
    else Decimal(n / 10) + [('0' as int + n % 10) as char]
  }

  lemma {:induction false} DecimalValueOf(n: nat)
    ensures DecimalValue(Decimal(n)) == n
  {
    var d := Decimal(n);
    if n >= 10 {
      DecimalValueOf(n / 10);
      assert d[..|d| - 1] == Decimal(n / 10);
    } else {
      assert d[..|d| - 1] == [];
    }
  }

  /** One leading '+' is accepted and changes nothing; a second is not. */
  lemma ParseU16Plus(s: String)
    ensures s == [] || s[0] != '+' ==> ParseU16(['+'] + s) == ParseU16(s)
    ensures ParseU16(['+', '+'] + s).None?
  {
  }

  /** Parsing the decimal rendering of a 16-bit value gives the value back. */
  lemma ParseDecimal(n: U16)
    ensures ParseU16(Decimal(n)) == Some(n)
  {
    DecimalValueOf(n);
  }
}

=== FILE: wrappers.dfy ===
/** Option and Result, the wrappers the model uses for Rust's `Option<T>`
    and `Result<T, E>`. */
module Wrappers {

  datatype Option<T> = None | Some(value: T) {
    function GetOr(default: T): T {
      match this
      case Some(v) => v
      case None => default
    }
  }

  datatype Result<T, E> = Ok(value: T) | Err(error: E)
}
